=== FILE: README.md ===
# BT_Serial_App relay and monitor core, in Dafny

This project models the logic of the three programs of BT_Serial_App, leaving out their GUI and I/O code:

- **The ESP32 relay board** (`Frimware/Relay_BLE/src/main.cpp`).
  - A value written to the BLE characteristic is parsed as `R<n><s>` and validated.
  - The command is applied to the four relay channels and acknowledged with `ACK_R<n><s>`.
  - Every relay is switched off on disconnect and on emergency stop.
  - The heartbeat counts the active relays.
  - `loop` tracks connection edges and restarts advertising.
- **The desktop relay panel** (`Relay.py`).
  - Four relay flags driven by button press, button release and disconnect.
  - The command text each event sends.
  - The scan re-entry guard.
  - The `name (address)` device labels.
  - How `connect_device` takes the address back out of the selected label.
- **The serial/BLE monitor** (`APP.py`).
  - Ordering of the serial-port list by keyword.
  - The device identifier of a selected entry.
  - The connect and disconnect bookkeeping.
  - Hex rendering of received chunks and the `[timestamp] data` record framing.
  - The message counter.
  - The textbox refresh and the connection clock.
  - The CSV export, which splits the displayed text back into timestamp and data.

Modules:

- `Common`: shared building blocks.
  - `Option` and `Byte`.
  - The four-slot `RelayBank`.
  - Decimal rendering, which serves as both Python's `str(int)` and Arduino's `String(uint8_t)`.
  - The BLE device label.
  - UTF-8 encoding, for Python's `str.encode()`.
- `PyText`: the Python string operations the applications rely on.
  - `find`, `rfind`, and slicing with negative and clamped bounds.
  - `split(sep)[0]`, `split(sep)[1]`, and `split`/`join` on one character.
  - `strip` with Python's exact whitespace set.
  - `lower`.
- `Firmware`: `main.cpp`.
- `RelayPanel`: `Relay.py`.
- `PortScan`, `Records` and `Monitor`: `APP.py`.
- `Link`: the panel and the firmware together, i.e. what goes over the wire and whether the two sides agree.

Semantics the model fixes explicitly:

- The firmware stores `rxValue[i] - '0'` into a `uint8_t`. The model takes the difference modulo 256, so a character below `'0'` becomes a large value that validation rejects.
- The firmware hands commands from the BLE callback to the relay task through a FreeRTOS queue. The model runs parse-then-apply as one step.
- `timedelta.seconds` is the whole-second part modulo one day. Python's normalisation makes it non-negative, and Dafny's `/` and `%` (floor and non-negative remainder for a positive divisor) compute it directly.
- The export's blank-line test `line.strip()` is modelled and evaluated. `Records.BracketLineNotBlank` shows it never decides anything on its own, because a line that starts with '[' is not blank.
- Clocks are parameters:
  - the receive time of a chunk (`datetime.now()`) is a `TimeOfDay`;
  - the connection start and the refresh instant are integers.

## Model

| member | source | states |
|---|---|---|
| Common.Decimal | Frimware/Relay_BLE/src/main.cpp:147 | The rendering is at least one digit, all digits, has no leading zero, and is a single digit exactly when the number is below 10. |
| Common.DecimalRoundTrip | Frimware/Relay_BLE/src/main.cpp:147 | Reading the digits of the rendering back gives the rendered number. |
| Common.DecimalInjective | Relay.py:526 | Different numbers never render to the same text. |
| Common.Utf8Encode | Relay.py:527 | `command.encode()` is at least as long as the text. For ASCII text it is one byte per character, equal to the character code. |
| Common.DisplayName | Relay.py:300 | A device without a name is shown as "Unknown Device"; a named device under its name. |
| Common.DeviceLabel | Relay.py:300-301 | The label is the display name, then " (", the address and ")". Each part sits at a known position, so `LabelAddressOfLabel` and `BleIdOfLabel` can read the address back out. |
| PyText.Find | APP.py:553 | `find` answers the first index at which the pattern occurs, or -1 when it occurs nowhere. |
| PyText.FindCharFirst | APP.py:553-554 | For one character, `find` is -1 exactly when the character is absent. Otherwise it holds the character and nothing before it does. |
| PyText.RFind | APP.py:326-327 | `rfind` answers an index holding the character with none after it, or -1. |
| PyText.SliceIndex | APP.py:328 | A slice bound inside the string is itself. A negative bound counts from the end, and a bound past either end is clamped to that end. |
| PyText.Slice | APP.py:328 | The slice holds the characters from the first resolved bound up to the second, and is empty when the second is not beyond the first. For in-range bounds it is the plain subsequence. |
| PyText.Second | Relay.py:350 | `split(sep)[1]` exists exactly when the separator occurs. It is the text after the first occurrence, up to the next occurrence or the end. |
| PyText.Before | APP.py:324 | `split(sep)[0]` is a prefix with no separator occurrence inside it, followed by the separator unless it is the whole string. |
| PyText.Split | APP.py:550 | `split(c)` gives at least one field, no field contains `c`, and joining the fields with `c` restores the text. |
| PyText.SplitJoin | APP.py:550 | Splitting a join of fields that do not contain the separator gives the fields back. |
| PyText.LStrip | APP.py:533 | `lstrip` removes exactly a run of leading whitespace and stops at a non-space. |
| PyText.RStrip | APP.py:533 | `rstrip` removes exactly a run of trailing whitespace and stops at a non-space. |
| PyText.Strip | APP.py:533 | `strip` leaves the contiguous part of the text between a leading and a trailing run of whitespace; that part neither starts nor ends with whitespace. |
| PyText.StripPadded | APP.py:533 | A text with non-space ends, followed by whitespace, strips to itself. |
| PyText.Lower | APP.py:252 | `lower` keeps the length and maps exactly the ASCII capitals to small letters. |
| Firmware.FieldValue | Frimware/Relay_BLE/src/main.cpp:98-99 | A digit character gives its digit. A character below `'0'` wraps to at least 208. |
| Firmware.ParseWrite | Frimware/Relay_BLE/src/main.cpp:88-112 | A write is ignored exactly when it is shorter than three bytes or not led by 'R'. It is queued exactly when its second byte is '1'..'4' and its third is '0' or '1', with those digit values. Any other command is rejected as invalid. |
| Firmware.ParseIgnoresTail | Frimware/Relay_BLE/src/main.cpp:96-99 | Bytes after the third never change the outcome. |
| Firmware.Ack | Frimware/Relay_BLE/src/main.cpp:147 | The acknowledgement starts with `ACK_R`; for a valid command it is exactly `ACK_R`, the channel digit and the state digit. |
| Firmware.ApplyCommand | Frimware/Relay_BLE/src/main.cpp:127-149 | The named channel takes the commanded state and the other three are unchanged. An acknowledgement `ACK_R<digit><digit>` is sent exactly when a device is connected. |
| Firmware.OnWrite | Frimware/Relay_BLE/src/main.cpp:85-112 | Only a queued command changes the board: the channel named by byte two takes the state named by byte three, and nothing else changes. |
| Firmware.OnConnect | Frimware/Relay_BLE/src/main.cpp:52-53 | A connect marks the device connected and leaves the relays alone. |
| Firmware.OnDisconnect | Frimware/Relay_BLE/src/main.cpp:63-74 | A disconnect leaves the board disconnected with every relay off, and changes nothing on a board that is already off and disconnected. |
| Firmware.EmergencyStop | Frimware/Relay_BLE/src/main.cpp:364-371 | Every relay is off and the connection flags are unchanged. |
| Firmware.SafetyResetsIdempotent | Frimware/Relay_BLE/src/main.cpp:63-74 | Disconnect and emergency stop each change nothing when repeated. |
| Firmware.CountActiveRelays | Frimware/Relay_BLE/src/main.cpp:184-187 | The heartbeat count equals the number of channels that are on and lies in 0..4. |
| Firmware.NoActiveRelayAfterReset | Frimware/Relay_BLE/src/main.cpp:184-187 | After either safety reset the count is zero. |
| Firmware.LoopStep | Frimware/Relay_BLE/src/main.cpp:329-341 | After one pass the remembered flag equals the current one. Advertising restarts exactly on a connected-to-disconnected edge. |
| Firmware.LoopStepSettles | Frimware/Relay_BLE/src/main.cpp:329-341 | A second pass changes nothing and does not advertise again. |
| RelayPanel.CommandText | Relay.py:526 | For channel index 0..3 and state 0/1 the command is exactly 'R', the channel number and the state digit. |
| RelayPanel.CommandBytes | Relay.py:526-527 | For that domain, the bytes on the wire are 82, 49 plus the index, and 48 plus the state. |
| RelayPanel.Press | Relay.py:457-477 | When not connected: a warning and nothing else. When connected: only the pressed channel turns on and `R<n>1` is sent. Nothing but the relay flags ever changes. |
| RelayPanel.Release | Relay.py:495-511 | When not connected, nothing happens and no warning is shown. When connected, only the released channel turns off and `R<n>0` is sent. Nothing but the relay flags ever changes. |
| RelayPanel.InitialPanelIdle | Relay.py:29-36 | A freshly started panel is not connected: a press only warns, a release does nothing, and a scan can start. |
| RelayPanel.PressThenRelease | Relay.py:457-511 | Press then release sends the on and then the off command, and leaves that channel off. |
| RelayPanel.DisconnectionSuccess | Relay.py:429-444 | The client and the device name are cleared, every relay flag is off, and the scan state is kept. |
| RelayPanel.Disconnect | Relay.py:408-427 | Only a failing request on a connected client leaves the panel as it was. In every other case the disconnection succeeds, and afterwards the panel is not connected. |
| RelayPanel.DisconnectIdempotent | Relay.py:417-444 | Disconnecting an already-disconnected panel changes nothing. |
| RelayPanel.ConnectFinished | Relay.py:361-376 | The client for the address is kept whether or not it connected. The device name is recorded only on success. Nothing else changes. |
| RelayPanel.ScanRequested | Relay.py:260-269 | A request during a scan is a no-op. Otherwise a scan starts with an empty device list, and nothing else changes. |
| RelayPanel.ScanFinished | Relay.py:310-320 | The scan is over, the list is the found labels, and the first label is selected if there is one. Nothing else changes. |
| RelayPanel.ScanFailed | Relay.py:324-326 | The scan is over and nothing else changes. |
| RelayPanel.ScanGuardReleased | Relay.py:262-326 | After completion or error a new scan is honoured; a second request during a scan is not. |
| RelayPanel.SplitAddress | Relay.py:341-359 | As written: an empty selection asks for a device, and a selection without '(' is invalid. Otherwise the address is the text after the first '(', up to the next '(' or ')' or the end. |
| RelayPanel.SplitAddressOfLabel | Relay.py:300-301 | When the name holds no '(' and the address no parentheses, the split recovers the address. |
| RelayPanel.SplitAddressMisreadsName | Relay.py:350 | The label "Buds (L) (AA:BB)" yields the address "L". |
| RelayPanel.LabelAddress | Relay.py:350 | Corrected extraction: the same error cases as the split. The address is the text after the last '(', up to the next ')' or the end. |
| RelayPanel.LabelAddressOfLabel | Relay.py:300-301 | The corrected extraction recovers the address of any label, whatever the device name. |
| RelayPanel.RequestConnect | Relay.py:341-359 | As written: connect asks for a device exactly when nothing is selected, and reports an invalid selection exactly when there is no '('. Otherwise it connects to the text after the first '(', up to the next '(' or ')'. |
| RelayPanel.RequestConnectCorrected | Relay.py:341-359 | Corrected connect: the same error cases. It connects to the text after the last '(', up to the next ')'. |
| RelayPanel.RequestConnectAgrees | Relay.py:348-350 | When the selection holds a single '(', the as-written and corrected connects request the same thing. |
| PortScan.ScanSerialPorts | APP.py:248-256 | The loop's list is the entries of the arranged port order: the preferred ports in reverse enumeration order, then the other ports in enumeration order. |
| PortScan.ArrangeIsPermutation | APP.py:251-256 | Arranging only reorders: every entry occurs exactly as often as its port was enumerated. |
| PortScan.PassingFirst | APP.py:252-256 | No non-matching element precedes a matching one. |
| PortScan.ScanIsPermutation | APP.py:248-256 | The port list is a permutation of the `device - description` entries. |
| PortScan.ScanPreferredFirst | APP.py:251-256 | Every port whose description mentions bluetooth, bt or serial precedes every other port. |
| Records.HexByte | APP.py:455 | A byte renders as two upper-case hexadecimal digits. |
| Records.HexString | APP.py:455 | n bytes render as 3n-1 characters: a space at every third position and hex digits everywhere else. |
| Records.HexByteRoundTrip | APP.py:455 | The two digits read back as the byte. |
| Records.HexBytePair | APP.py:455 | Any two digits the reader accepts are the rendering of the byte read. |
| Records.HexRoundTrip | APP.py:455 | The bytes are recoverable from their hex rendering. |
| Records.HexCanonical | APP.py:455 | Every text the hex reader accepts is exactly the rendering of what it reads. |
| Records.ParseLine | APP.py:550-557 | A line yields a row exactly when it starts with '[' and contains ']'. The row is the text before the first ']', and the text two places after it. |
| Records.ParseBracketLine | APP.py:552-557 | The same split, for a line known to start with '['. |
| Records.BracketLineNotBlank | APP.py:551 | A line starting with '[' always passes the blank-line test. |
| Records.SameBracketPrefix | APP.py:553-555 | Two bracketed prefixes of one line whose contents hold no ']' are equal. |
| Records.ParseBracketed | APP.py:553-556 | A line opening with `[stamp]` parses to the stamp and the text from the character after the next one. |
| Records.FrameRoundTrip | APP.py:459 | Parsing `[ts] data` gives back ts and data whenever ts holds no ']'. |
| Records.StampOnlyParses | APP.py:553-556 | A bare `[ts]` line gives ts and empty data. |
| Records.StrippedFrameParses | APP.py:550-557 | Every line the export sees for a record parses back to that record. |
| Records.FrameLayout | APP.py:459 | The queued line `Records.Frame` is '[', the timestamp, "] ", then the data, at known positions. `Records.FrameRoundTrip` is its inverse. |
| Records.TextboxText | APP.py:533 | `get("1.0", "end")` of an empty textbox is one newline. Otherwise it is the newline-join of the lines followed by two newlines: the one after the last insert and the one the widget keeps. |
| Records.DisplayedIsJoin | APP.py:484-485 | The textbox after the inserts is the newline-join of the lines plus one newline. |
| Records.RowsOf | APP.py:550-557 | No more rows than lines, and no row's timestamp holds ']'. |
| Records.RowsOfParsed | APP.py:550-557 | When every line parses, the rows are exactly the parsed rows in order. |
| Records.ExportCsv | APP.py:531-557 | The export refuses exactly when the stripped text is blank, and every exported timestamp is free of ']'. |
| Records.JoinedFrames | APP.py:484-485 | The joined frames differ from the joined export lines only by the space an empty last data part leaves. |
| Records.StrippedText | APP.py:533 | Stripping the textbox text leaves the newline-join of the record lines, with an empty last data part losing its space. |
| Records.ExportLinesParse | APP.py:550-557 | Those lines hold no newline and each parses back to its record. |
| Records.ExportRoundTrip | APP.py:531-557 | Exporting the textbox after a run of records gives back every record's timestamp and data in order; with no records it gives nothing. |
| Monitor.ZeroPad | APP.py:500 | The padded rendering is all digits, at least the requested width, and reads back as the number. |
| Monitor.ZeroPadWidth | APP.py:500 | A number below ten to the width fills exactly the width. |
| Monitor.Stamp | APP.py:452 | The millisecond timestamp has the shape HH:MM:SS.mmm: twelve characters, digits except the two ':' and the '.'; the values of its fields are stated by `Monitor.StampReadsBack`. |
| Monitor.StampReadsBack | APP.py:452 | The hour, minute and second read back off the stamp, and its last three digits are the whole milliseconds, the microseconds divided by 1000 (the `[:-3]` cut). |
| Monitor.DeviceIdentifier | APP.py:317-328 | An empty selection gives no identifier. In serial mode it is the text before the first " - ", or the whole selection. In BLE mode it is the slice from after the last '(' to the last ')'. Python's -1 gives each absent-bracket case: a reversed pair gives nothing, no '(' starts at 0, and no ')' drops the last character. |
| Monitor.SerialIdOfEntry | APP.py:254 | The serial identifier of a listed entry is the port's device name, when that holds no space. |
| Monitor.BleIdOfLabel | APP.py:283 | The BLE identifier of a listed device is its address, whatever the device name. |
| Monitor.BleIdWithoutParentheses | APP.py:326-328 | A BLE-mode selection without parentheses yields the selection minus its last character. |
| Monitor.ConnectDevice | APP.py:337-350 | Connect complains exactly when the identifier is missing or empty. Otherwise it opens that identifier in the current mode. |
| Monitor.ConnectFinished | APP.py:352-404 | Success connects, stores the connection and starts the clock at the given instant (in microseconds). A failed serial attempt changes nothing; a failed BLE attempt keeps its client object. Nothing but those three fields ever changes. |
| Monitor.Disconnect | APP.py:462-477 | Afterwards the monitor is not connected and has no connection; nothing else changes. |
| Monitor.DisconnectIdempotent | APP.py:462-477 | A second disconnect changes nothing. |
| Monitor.Toggle | APP.py:330-335 | When connected, the toggle disconnects and nothing but the connection fields changes. Otherwise it issues the connect request and changes nothing. |
| Monitor.SetKind | APP.py:218-220 | Choosing serial or BLE sets the connection type and nothing else. |
| Monitor.DevicesListed | APP.py:293-297 | A non-empty scan result selects its first device; an empty one changes nothing; nothing but the selection ever changes. |
| Monitor.ListedPortConnects | APP.py:244-256 | After a serial scan, connecting opens the first port of the arranged order, when every device name is non-empty and holds no space. The arranged list keeps every port. |
| Monitor.ListedDeviceConnects | APP.py:283-284 | After a BLE scan, connecting opens the address of the first listed device, whatever its name. |
| Monitor.InitialAsksForDevice | APP.py:39-44 | A freshly started monitor shows no clock, and toggling it asks for a device first. |
| Monitor.ProcessReceivedData | APP.py:450-460 | Exactly one framed hex record is queued and the counter goes up by exactly one; nothing else changes. |
| Monitor.ReceiveChunks | APP.py:421-428 | The receive loop queues one record per non-empty read, in order, and counts them; nothing else changes. |
| Monitor.ElapsedSeconds | APP.py:497-498 | The result is the whole seconds of the elapsed time modulo one day, which is Python's normalised `timedelta.seconds`. It is below 86400. |
| Monitor.ClockOf | APP.py:498-499 | hours·3600 + minutes·60 + seconds equals the input, with minutes and seconds below 60 and hours below 24. |
| Monitor.ClockUnique | APP.py:498-499 | That decomposition is the only one with minutes and seconds below 60. |
| Monitor.ClockText | APP.py:500 | The clock text is `HH:MM:SS` with the three fields reading back as hours, minutes and seconds. |
| Monitor.UpdateGui | APP.py:479-504 | The refresh drains the whole queue onto the end of the textbox and shows the message count. While connected with a known start, the clock reads `HH:MM:SS`. Its fields read back as hours below 24, minutes and seconds below 60, with hours·3600 + minutes·60 + seconds = the elapsed seconds, so `Monitor.ClockUnique` pins the text. Otherwise `--:--:--` is shown. |
| Monitor.ClearData | APP.py:506-509 | The textbox is emptied and the counter reset. Nothing else changes, so queued lines and the connection are kept. |
| Monitor.ClearThenRefresh | APP.py:479-509 | A refresh after a clear shows exactly the lines that were still queued. |
| Monitor.HexRecordExportable | APP.py:452-459 | A hex record has a stamp without ']' or newline, and data without a newline or trailing space, so it survives the export. |
| Monitor.SessionExport | APP.py:450-557 | Receive a run of reads into an empty textbox, refresh, then export. The CSV lists one row per non-empty read with its stamp and hex data, in order. |
| Link.CommandAccepted | Frimware/Relay_BLE/src/main.cpp:96-103 | Every command the panel produces is queued by the firmware for the channel and state it names. |
| Link.QueuedIsCommand | Relay.py:526 | Every three-byte write the firmware queues is one the panel can produce. |
| Link.AckEchoesCommand | Frimware/Relay_BLE/src/main.cpp:147 | The acknowledgement is "ACK_" followed by the command text. |
| Link.PressKeepsAgreement | Relay.py:457-477 | A press delivered to a connected board keeps panel and board relays equal, and the board acknowledges with "ACK_" plus the command. |
| Link.ReleaseKeepsAgreement | Relay.py:495-511 | The same for a release. |
| Link.DisconnectAgreement | Relay.py:429-444 | After a disconnect both sides show every relay off. |
| Link.StartUpAgreement | Frimware/Relay_BLE/src/main.cpp:216-220 | A freshly started panel and a freshly powered board agree. No relay is on, and the first loop pass does not restart advertising. |

## Findings

| source | as written | input that shows it | evidently intended | confidence | as-written member | corrected member |
|---|---|---|---|---|---|---|
| Relay.py:350 | The address is taken after the FIRST '(' of the label, up to the next '(' or ')'. | A device named "Buds (L)" is listed as "Buds (L) (AA:BB)" and connects to the address "L". | The address after the LAST '(', as APP.py:326-328 does for the same label format. | not executed; high that the split misreads such names, medium that names with parentheses occur | RelayPanel.SplitAddressMisreadsName | RelayPanel.LabelAddressOfLabel |

`RelayPanel.SplitAddress` and `RelayPanel.RequestConnect` model the code as written. `RelayPanel.LabelAddress` and `RelayPanel.RequestConnectCorrected` are the corrected versions. `RelayPanel.RequestConnectAgrees` shows the two agree whenever the selection holds a single '('.

## Left out

- GUI construction, notifications, message boxes, colours, animations and theme toggling are presentation only.
- Threads, asyncio event loops, `root.after` marshalling and the FreeRTOS tasks are left out. Each handler is one atomic step.
- The relay queue's capacity of 10 and its 100 ms send timeout are left out. A command that fails to queue is not modelled, and neither is a queued command applied after the client disconnected.
- bleak, pyserial and `serial.tools.list_ports` are foreign libraries. Port lists, byte chunks and connect or disconnect success are parameters.
- `digitalWrite`, the status LED, `ESP.restart`/`systemReset`, `millis`, the heartbeat's other output and heap reporting are hardware I/O. The relays are modelled only through the four-slot state array.
- The text display format (`decode('utf-8', errors='ignore').strip()`) is not modelled. Only the hex path is.
- `datetime` is reduced to its fields. The receive stamp is taken as an hour/minute/second/microsecond value, and the two clock instants as integers.
- The `csv` module's quoting, the header row and the file dialogs are left out. The export is modelled as the list of (timestamp, data) rows it writes after the header.
- `save_data` and `start_ble_receiving` are left out: each only forwards to the GUI or to a file.
- `on_connection_type_change` is modelled by `Monitor.SetKind`. The serial settings frame it shows or hides is presentation only. The rescan it starts is the separate scan and `Monitor.DevicesListed` steps. Its "BLE not available" branch, taken when bleak is missing, is not modelled.
- `update_device_list` is modelled by `Monitor.DevicesListed`. The combobox's value list and the found/not-found notification are presentation only.
- PyText.Lower: `str.lower` maps only the ASCII capitals here, because Python's full Unicode case table is not modelled.
- Records.ExportRoundTrip requires a timestamp without ']' or newline, data without a newline, and data that does not end in whitespace. Text-mode data containing a newline would be split into two lines by the export.
- Monitor.ConnectFinished: the serial parameters (baud rate, data bits) are not modelled.
- Monitor.ReceiveChunks models only the receive worker's loop. Its error notifications and the `disconnect_device` it schedules after the loop ends (APP.py:431-441) are not modelled. A disconnect is the separate `Monitor.Disconnect` step.

=== FILE: common.dfy ===
/**
 Building blocks shared by the firmware and both desktop applications:
 an optional value, the byte type of the BLE and serial links, decimal
 rendering of integers and the UTF-8 encoding of text.
 */
module Common {

  /** Python's `None`-or-value and C's "maybe present". */
  datatype Option<+T> = None | Some(value: T)

  /** One octet on the wire. */
  type Byte = x: int | 0 <= x < 256

  /** The on/off state of the four relay channels, channel 1 first. */
  type RelayBank = s: seq<bool> | |s| == 4 witness [false, false, false, false]

  const AllOff: RelayBank := [false, false, false, false]

  /** The character that shows the decimal digit d. */
  function DigitChar(d: nat): (c: char)
    requires d < 10
    ensures '0' <= c <= '9'
    ensures c as int - '0' as int == d
  {
    ('0' as int + d) as char
  }

  predicate IsDigit(c: char) {
    '0' <= c <= '9'
  }

  /** The value of a decimal digit character. */
  function DigitValue(c: char): (d: nat)
    requires IsDigit(c)
    ensures d < 10 && DigitChar(d) == c
  {
    c as int - '0' as int
  }

  /**
   The decimal rendering of a non-negative integer without leading zeros.
   Python's `str(int)` and the Arduino `String(uint8_t)` constructor both
   render their argument this way.
   */
  function Decimal(n: nat): (r: string)
    ensures |r| >= 1
    ensures forall i | 0 <= i < |r| :: IsDigit(r[i])
    ensures r[0] == '0' ==> n == 0
    ensures n < 10 <==> |r| == 1
    decreases n
  {
    if n < 10 then [DigitChar(n)] else Decimal(n / 10) + [DigitChar(n % 10)]
  }

  /** The number a string of decimal digits denotes. */
  function DigitsValue(s: string): nat
    requires forall i | 0 <= i < |s| :: IsDigit(s[i])
  {
    if |s| == 0 then 0 else DigitsValue(s[..|s| - 1]) * 10 + DigitValue(s[|s| - 1])
  }

  /** Reading back a decimal rendering gives the number that was rendered. */
  lemma {:induction false} DecimalRoundTrip(n: nat)
    ensures DigitsValue(Decimal(n)) == n
    decreases n
  {
    if n >= 10 {
      DecimalRoundTrip(n / 10);
      var r := Decimal(n);
      assert r[..|r| - 1] == Decimal(n / 10);
    }
  }

  /** A leading zero does not change the value of a digit string. */
  lemma {:induction false} LeadingZero(s: string)
    requires forall i | 0 <= i < |s| :: IsDigit(s[i])
    ensures DigitsValue("0" + s) == DigitsValue(s)
    decreases |s|
  {
    if |s| > 0 {
      var t := "0" + s;
      assert t[..|t| - 1] == "0" + s[..|s| - 1];
      LeadingZero(s[..|s| - 1]);
    } else {
      assert ("0" + s)[..0] == [];
    }
  }

  /** A number below 10 to the w-th renders in at most w digits. */
  lemma {:induction false} DecimalLength(n: nat, w: nat)
    requires w >= 1 && n < Pow10(w)
    ensures |Decimal(n)| <= w
    decreases n
  {
    if n >= 10 {
      assert w >= 2;
      assert n / 10 < Pow10(w - 1);
      DecimalLength(n / 10, w - 1);
    }
  }

  function Pow10(w: nat): (r: nat)
    ensures r >= 1
  {
    if w == 0 then 1 else 10 * Pow10(w - 1)
  }

  /** A string of w digits is worth less than 10 to the w-th. */
  lemma {:induction false} DigitsBound(s: string)
    requires forall i | 0 <= i < |s| :: IsDigit(s[i])
    ensures DigitsValue(s) < Pow10(|s|)
    decreases |s|
  {
    if |s| > 0 {
      DigitsBound(s[..|s| - 1]);
    }
  }

  /**
   Splitting a digit string after its first k digits: the leading digits
   count in units of 10 to the power of the number of trailing ones.
   */
  lemma {:induction false} DigitsSplit(s: string, k: nat)
    requires k <= |s|
    requires forall i | 0 <= i < |s| :: IsDigit(s[i])
    ensures DigitsValue(s) == DigitsValue(s[..k]) * Pow10(|s| - k) + DigitsValue(s[k..])
    decreases |s|
  {
    if |s| == k {
      assert s[..k] == s;
      assert s[k..] == [];
    } else {
      var init := s[..|s| - 1];
      var tail := s[k..];
      DigitsSplit(init, k);
      assert init[..k] == s[..k];
      assert tail[..|tail| - 1] == init[k..] && tail[|tail| - 1] == s[|s| - 1];
      ShiftDigit(DigitsValue(s), DigitsValue(init), DigitsValue(tail), DigitsValue(s[..k]),
        DigitsValue(init[k..]), Pow10(|init| - k), Pow10(|s| - k), DigitValue(s[|s| - 1]));
    }
  }

  /**
   One more digit on the right of a split number: if the number without it
   is high * p + low, the number with it is high * (10 * p) plus the low
   part with the digit.
   */
  lemma ShiftDigit(whole: int, init: int, tail: int, high: int, low: int, p: int, q: int, d: int)
    requires whole == init * 10 + d && init == high * p + low
    requires tail == low * 10 + d && q == 10 * p
    ensures whole == high * q + tail
  {
    assert (high * p + low) * 10 == high * (10 * p) + low * 10;
  }

  /** Decimal rendering is injective: different numbers render differently. */
  lemma DecimalInjective(m: nat, n: nat)
    requires Decimal(m) == Decimal(n)
    ensures m == n
  {
    DecimalRoundTrip(m);
    DecimalRoundTrip(n);
  }

  /** `device.name or "Unknown Device"`: the name shown for a discovered BLE device. */
  function DisplayName(name: string): (r: string)
    ensures |r| > 0
    ensures name != [] ==> r == name
    ensures name == [] ==> r == "Unknown Device"
  {
    if name == [] then "Unknown Device" else name
  }

  /** The label both desktop applications list a discovered BLE device under: its name, then its address in parentheses. */
  function DeviceLabel(name: string, address: string): (r: string)
    ensures var n := DisplayName(name);
      && |r| == |n| + |address| + 3
      && r[..|n|] == n && r[|n|..|n| + 2] == " (" && r[|n| + 2..|r| - 1] == address && r[|r| - 1] == ')'
  {
    DisplayName(name) + " (" + address + ")"
  }

  /** The UTF-8 encoding of one Unicode scalar value (RFC 3629, section 3). */
  function EncodeChar(c: char): (r: seq<Byte>)
    ensures 1 <= |r| <= 4
    ensures |r| == 1 <==> c as int < 0x80
    ensures |r| == 1 ==> r[0] == c as int
    ensures forall i | 1 <= i < |r| :: 0x80 <= r[i] < 0xC0
  {
    var n := c as int;
    if n < 0x80 then [n]
    else if n < 0x800 then [0xC0 + n / 64, 0x80 + n % 64]
    else if n < 0x10000 then [0xE0 + n / 4096, 0x80 + (n / 64) % 64, 0x80 + n % 64]
    else [0xF0 + n / 262144, 0x80 + (n / 4096) % 64, 0x80 + (n / 64) % 64, 0x80 + n % 64]
  }

  predicate IsAscii(s: string) {
    forall i | 0 <= i < |s| :: s[i] as int < 0x80
  }

  /** Python's `str.encode()`, whose default codec is UTF-8. */
  function Utf8Encode(s: string): (r: seq<Byte>)
    ensures |r| >= |s|
    ensures IsAscii(s) ==> |r| == |s| && forall i | 0 <= i < |s| :: r[i] == s[i] as int
  {
    if |s| == 0 then [] else EncodeChar(s[0]) + Utf8Encode(s[1..])
  }
}

=== FILE: firmware.dfy ===
/**
 The ESP32 relay board (Frimware/Relay_BLE/src/main.cpp): how a value
 written to the BLE characteristic is parsed and validated, how an accepted
 command drives the four relay channels and is acknowledged, the safety
 resets on disconnect and emergency stop, the active-relay count of the
 heartbeat report and the connection-edge tracking of `loop`.

 The firmware hands accepted commands from the BLE callback to a FreeRTOS
 relay task through a queue; here the two halves run back to back.
 */
module Firmware {
  import opened Common

  /** The `RelayCommand` record: both fields are `uint8_t`. */
  datatype RelayCommand = RelayCommand(relayNumber: Byte, state: Byte)

  /** What `onWrite` makes of one written value. */
  datatype WriteOutcome =
    | Ignored                      // empty, shorter than three bytes, or not led by 'R'
    | Rejected(cmd: RelayCommand)  // parsed, but "Invalid command format"
    | Queued(cmd: RelayCommand)    // handed on to the relay task

  const LetterR: Byte := 'R' as int
  const Zero: Byte := '0' as int

  /** `c - '0'` stored into a `uint8_t`: the difference taken modulo 256. */
  function FieldValue(b: Byte): (v: Byte)
    ensures Zero <= b < Zero + 10 ==> v == b - Zero
    ensures b < Zero ==> v >= 256 - Zero
  {
    (b - Zero) % 256
  }

  /** The validation of `onWrite`: channel 1 to 4, state 0 or 1. */
  predicate ValidCommand(cmd: RelayCommand) {
    1 <= cmd.relayNumber <= 4 && (cmd.state == 0 || cmd.state == 1)
  }

  /**
   Parsing and validation of one written value. Only the first three bytes
   are looked at; because the fields are unsigned bytes, a character below
   '0' wraps to a large value and is rejected like any other out-of-range one.
   */
  function ParseWrite(rx: seq<Byte>): (r: WriteOutcome)
    ensures r.Ignored? <==> |rx| < 3 || rx[0] != LetterR
    ensures r.Queued? <==>
      |rx| >= 3 && rx[0] == LetterR && '1' as int <= rx[1] <= '4' as int && (rx[2] == '0' as int || rx[2] == '1' as int)
    ensures r.Queued? ==> ValidCommand(r.cmd) && r.cmd.relayNumber == rx[1] - Zero && r.cmd.state == rx[2] - Zero
    ensures r.Rejected? ==> !ValidCommand(r.cmd)
  {
    if |rx| >= 3 && rx[0] == LetterR then
      var cmd := RelayCommand(FieldValue(rx[1]), FieldValue(rx[2]));
      if ValidCommand(cmd) then Queued(cmd) else Rejected(cmd)
    else
      Ignored
  }

  /** Bytes after the third never influence the outcome: "R21xyz" acts like "R21". */
  lemma ParseIgnoresTail(rx: seq<Byte>, tail: seq<Byte>)
    requires |rx| >= 3
    ensures ParseWrite(rx + tail) == ParseWrite(rx)
  {
    assert (rx + tail)[..3] == rx[..3];
  }

  /** The global state of the board that the model tracks. */
  datatype Board = Board(relays: RelayBank, deviceConnected: bool, oldDeviceConnected: bool)

  /** The state right after `setup`: all relays off, nobody connected. */
  const PowerOn: Board := Board(AllOff, false, false)

  /** The acknowledgement the relay task notifies: "ACK_R", channel, state. */
  function Ack(cmd: RelayCommand): (r: string)
    ensures |r| >= 7 && r[..5] == "ACK_R"
    ensures ValidCommand(cmd) ==> r == "ACK_R" + [DigitChar(cmd.relayNumber), DigitChar(cmd.state)]
  {
    "ACK_R" + Decimal(cmd.relayNumber) + Decimal(cmd.state)
  }

  /** The relay task's handling of one dequeued command. */
  datatype Applied = Applied(board: Board, ack: Option<string>)

  function ApplyCommand(b: Board, cmd: RelayCommand): (r: Applied)
    requires ValidCommand(cmd)
    ensures r.board.relays[cmd.relayNumber - 1] == (cmd.state == 1)
    ensures forall k | 0 <= k < 4 && k != cmd.relayNumber - 1 :: r.board.relays[k] == b.relays[k]
    ensures r.board.deviceConnected == b.deviceConnected
    ensures r.board.oldDeviceConnected == b.oldDeviceConnected
    ensures r.ack.Some? <==> b.deviceConnected
    ensures r.ack.Some? ==> r.ack.value == "ACK_R" + [DigitChar(cmd.relayNumber), DigitChar(cmd.state)]
  {
    var index := cmd.relayNumber - 1;
    var b' := b.(relays := b.relays[index := cmd.state == 1]);
    Applied(b', if b.deviceConnected then Some(Ack(cmd)) else None)
  }

  /** A write as the board handles it end to end: parse, validate, apply, acknowledge. */
  datatype WriteResult = WriteResult(outcome: WriteOutcome, board: Board, ack: Option<string>)

  function OnWrite(b: Board, rx: seq<Byte>): (r: WriteResult)
    ensures r.outcome == ParseWrite(rx)
    ensures !r.outcome.Queued? ==> r.board == b && r.ack.None?
    ensures r.outcome.Queued? ==>
      && r.board.relays[rx[1] - '1' as int] == (rx[2] == '1' as int)
      && (forall k | 0 <= k < 4 && k != rx[1] - '1' as int :: r.board.relays[k] == b.relays[k])
      && r.board.deviceConnected == b.deviceConnected
      && r.board.oldDeviceConnected == b.oldDeviceConnected
  {
    var outcome := ParseWrite(rx);
    if outcome.Queued? then
      var applied := ApplyCommand(b, outcome.cmd);
      WriteResult(outcome, applied.board, applied.ack)
    else
      WriteResult(outcome, b, None)
  }

  /** `onConnect`. */
  function OnConnect(b: Board): (r: Board)
    ensures r.deviceConnected
    ensures r.relays == b.relays && r.oldDeviceConnected == b.oldDeviceConnected
  {
    b.(deviceConnected := true)
  }

  /** `onDisconnect`: forget the client and switch every relay off for safety. */
  function OnDisconnect(b: Board): (r: Board)
    ensures !r.deviceConnected
    ensures forall k | 0 <= k < 4 :: !r.relays[k]
    ensures r.oldDeviceConnected == b.oldDeviceConnected
    ensures b.relays == AllOff && !b.deviceConnected ==> r == b
  {
    b.(deviceConnected := false, relays := AllOff)
  }

  /** `emergencyStop`: switch every relay off; the connection is left alone. */
  function EmergencyStop(b: Board): (r: Board)
    ensures forall k | 0 <= k < 4 :: !r.relays[k]
    ensures r.deviceConnected == b.deviceConnected && r.oldDeviceConnected == b.oldDeviceConnected
    ensures b.relays == AllOff ==> r == b
  {
    b.(relays := AllOff)
  }

  /** Both safety resets are idempotent. */
  lemma SafetyResetsIdempotent(b: Board)
    ensures OnDisconnect(OnDisconnect(b)) == OnDisconnect(b)
    ensures EmergencyStop(EmergencyStop(b)) == EmergencyStop(b)
  {
  }

  /** The indices of the relays that are on. */
  function ActiveSet(relays: RelayBank): set<int> {
    set k | 0 <= k < 4 && relays[k]
  }

  /** The active-relay count printed by the heartbeat task. */
  method CountActiveRelays(relays: RelayBank) returns (active: int)
    ensures active == |ActiveSet(relays)|
    ensures 0 <= active <= 4
  {
    active := 0;
    var i := 0;
    while i < 4
      invariant 0 <= i <= 4
      invariant 0 <= active <= i
      invariant active == |set k | 0 <= k < i && relays[k]|
    {
      var before := set k | 0 <= k < i && relays[k];
      var after := set k | 0 <= k < i + 1 && relays[k];
      if relays[i] {
        assert after == before + {i};
        active := active + 1;
      } else {
        assert after == before;
      }
      i := i + 1;
    }
  }

  /** After either safety reset the heartbeat reports no active relay. */
  lemma NoActiveRelayAfterReset(b: Board)
    ensures |ActiveSet(OnDisconnect(b).relays)| == 0
    ensures |ActiveSet(EmergencyStop(b).relays)| == 0
  {
    assert ActiveSet(AllOff) == {};
  }

  /** One pass of `loop`, and whether it restarted advertising. */
  datatype LoopResult = LoopResult(board: Board, restartAdvertising: bool)

  function LoopStep(b: Board): (r: LoopResult)
    ensures r.board.oldDeviceConnected == r.board.deviceConnected
    ensures r.restartAdvertising <==> b.oldDeviceConnected && !b.deviceConnected
    ensures r.board.relays == b.relays && r.board.deviceConnected == b.deviceConnected
  {
    // disconnecting edge
    var restart := !b.deviceConnected && b.oldDeviceConnected;
    var b1 := if restart then b.(oldDeviceConnected := b.deviceConnected) else b;
    // connecting edge
    var b2 := if b1.deviceConnected && !b1.oldDeviceConnected then b1.(oldDeviceConnected := b1.deviceConnected) else b1;
    LoopResult(b2, restart)
  }

  /** Once `loop` has seen an edge, further passes change nothing and do not advertise again. */
  lemma LoopStepSettles(b: Board)
    ensures LoopStep(LoopStep(b).board) == LoopResult(LoopStep(b).board, false)
  {
  }
}

=== FILE: link.dfy ===
/**
 The two ends of the relay link together: the commands the desktop panel
 (Relay.py) writes and the ESP32 firmware (main.cpp) that receives them.
 A command travels as the UTF-8 encoding of the panel's command text.
 */
module Link {
  import opened Common
  import Firmware
  import RelayPanel

  /** Every command the panel can produce is queued by the firmware for the channel and state it names. */
  lemma CommandAccepted(relayIndex: nat, state: nat)
    requires relayIndex < 4 && state < 2
    ensures Firmware.ParseWrite(RelayPanel.CommandBytes(relayIndex, state))
         == Firmware.Queued(Firmware.RelayCommand(relayIndex + 1, state))
  {
  }

  /** Conversely, every three-byte write the firmware queues is one the panel can produce. */
  lemma QueuedIsCommand(rx: seq<Byte>)
    requires |rx| == 3 && Firmware.ParseWrite(rx).Queued?
    ensures exists i: nat, s: nat | i < 4 && s < 2 :: rx == RelayPanel.CommandBytes(i, s)
  {
    var i: nat := rx[1] - '1' as int;
    var s: nat := rx[2] - '0' as int;
    assert rx == RelayPanel.CommandBytes(i, s);
  }

  /** The acknowledgement of a panel command is "ACK_" followed by the command text itself. */
  lemma AckEchoesCommand(relayIndex: nat, state: nat)
    requires relayIndex < 4 && state < 2
    ensures Firmware.Ack(Firmware.RelayCommand(relayIndex + 1, state)) == "ACK_" + RelayPanel.CommandText(relayIndex, state)
  {
  }

  /** The panel's four flags show what the board's four channels are doing. */
  predicate Agree(p: RelayPanel.Panel, b: Firmware.Board) {
    p.relays == b.relays
  }

  /** The board's reaction to the bytes of a command the panel sent. */
  function Deliver(b: Firmware.Board, sent: string): Firmware.WriteResult {
    Firmware.OnWrite(b, Utf8Encode(sent))
  }

  /** A press sent over a live link leaves the panel and the board in agreement, and the board acknowledges it. */
  lemma PressKeepsAgreement(p: RelayPanel.Panel, b: Firmware.Board, i: nat)
    requires i < 4 && RelayPanel.Connected(p) && b.deviceConnected && Agree(p, b)
    ensures var e := RelayPanel.Press(p, i);
      && e.sent.Some?
      && Agree(e.panel, Deliver(b, e.sent.value).board)
      && Deliver(b, e.sent.value).ack == Some("ACK_" + e.sent.value)
  {
    var e := RelayPanel.Press(p, i);
    CommandAccepted(i, 1);
    AckEchoesCommand(i, 1);
    var w := Deliver(b, e.sent.value);
    assert w.board.relays == e.panel.relays;
  }

  /** The same for a release. */
  lemma ReleaseKeepsAgreement(p: RelayPanel.Panel, b: Firmware.Board, i: nat)
    requires i < 4 && RelayPanel.Connected(p) && b.deviceConnected && Agree(p, b)
    ensures var e := RelayPanel.Release(p, i);
      && e.sent.Some?
      && Agree(e.panel, Deliver(b, e.sent.value).board)
      && Deliver(b, e.sent.value).ack == Some("ACK_" + e.sent.value)
  {
    var e := RelayPanel.Release(p, i);
    CommandAccepted(i, 0);
    AckEchoesCommand(i, 0);
    var w := Deliver(b, e.sent.value);
    assert w.board.relays == e.panel.relays;
  }

  /** When the link drops, the panel (after a successful disconnect) and the board both show every relay off. */
  lemma DisconnectAgreement(p: RelayPanel.Panel, b: Firmware.Board)
    ensures Agree(RelayPanel.Disconnect(p, false), Firmware.OnDisconnect(b))
    ensures RelayPanel.Disconnect(p, false).relays == AllOff
  {
  }

  /** A freshly started panel and a freshly powered board agree, and neither has a relay on. */
  lemma StartUpAgreement()
    ensures Agree(RelayPanel.Initial, Firmware.PowerOn)
    ensures Firmware.ActiveSet(Firmware.PowerOn.relays) == {}
    ensures !Firmware.LoopStep(Firmware.PowerOn).restartAdvertising
  {
  }
}

=== FILE: monitor.dfy ===
/**
 The bookkeeping of the monitor application (APP.py): the identifier a
 selected device entry yields, the connection flags, the record queue and
 message counter fed by received chunks, the textbox the periodic GUI
 refresh fills, and the connection clock it shows.

 Received chunks are rendered in hex; the text rendering decodes UTF-8 and
 is not part of this model.
 */
module Monitor {
  import opened Common
  import PyText
  import PortScan
  import Records

  /** `self.connection_type`. */
  datatype ConnectionType = Serial | Ble

  /** A time of day as `datetime.now()` reports it. */
  datatype TimeOfDay = TimeOfDay(hour: nat, minute: nat, second: nat, micro: nat)

  predicate ValidTime(t: TimeOfDay) {
    t.hour < 24 && t.minute < 60 && t.second < 60 && t.micro < 1000000
  }

  /** `f"{n:0{w}d}"`: the decimal rendering of n, left-padded with zeros to width w. */
  function ZeroPad(n: nat, w: nat): (r: string)
    ensures |r| == if |Decimal(n)| >= w then |Decimal(n)| else w
    ensures forall i | 0 <= i < |r| :: IsDigit(r[i])
    ensures DigitsValue(r) == n
    decreases w
  {
    if |Decimal(n)| >= w then
      DecimalRoundTrip(n);
      Decimal(n)
    else
      var rest := ZeroPad(n, w - 1);
      LeadingZero(rest);
      "0" + rest
  }

  /** A value below 10 to the w-th fills exactly w digits. */
  lemma ZeroPadWidth(n: nat, w: nat)
    requires w >= 1 && n < Pow10(w)
    ensures |ZeroPad(n, w)| == w
  {
    DecimalLength(n, w);
  }

  /** `datetime.now().strftime("%H:%M:%S.%f")[:-3]`: the time of day to the millisecond. */
  function Stamp(t: TimeOfDay): (r: string)
    requires ValidTime(t)
    ensures |r| == 12
    ensures forall i | 0 <= i < |r| ::
      if i == 2 || i == 5 then r[i] == ':' else if i == 8 then r[i] == '.' else IsDigit(r[i])
  {
    ZeroPadWidth(t.hour, 2);
    ZeroPadWidth(t.minute, 2);
    ZeroPadWidth(t.second, 2);
    ZeroPadWidth(t.micro, 6);
    var full := ZeroPad(t.hour, 2) + ":" + ZeroPad(t.minute, 2) + ":" + ZeroPad(t.second, 2) + "." + ZeroPad(t.micro, 6);
    full[..|full| - 3]
  }

  /**
   The hour, minute and second can be read back off a stamp, and its last
   three digits are the whole milliseconds: the microseconds with their
   last three digits cut off.
   */
  lemma StampReadsBack(t: TimeOfDay)
    requires ValidTime(t)
    ensures DigitsValue(Stamp(t)[0..2]) == t.hour
    ensures DigitsValue(Stamp(t)[3..5]) == t.minute
    ensures DigitsValue(Stamp(t)[6..8]) == t.second
    ensures DigitsValue(Stamp(t)[9..12]) == t.micro / 1000
  {
    ZeroPadWidth(t.hour, 2);
    ZeroPadWidth(t.minute, 2);
    ZeroPadWidth(t.second, 2);
    ZeroPadWidth(t.micro, 6);
    var r := Stamp(t);
    assert r[0..2] == ZeroPad(t.hour, 2);
    assert r[3..5] == ZeroPad(t.minute, 2);
    assert r[6..8] == ZeroPad(t.second, 2);
    var micro := ZeroPad(t.micro, 6);
    assert r[9..12] == micro[..3];
    MillisOfMicros(micro, t.micro);
  }

  /** The first three of six digits worth `n` are worth `n / 1000`. */
  lemma MillisOfMicros(micro: string, n: nat)
    requires |micro| == 6 && forall i | 0 <= i < 6 :: IsDigit(micro[i])
    requires DigitsValue(micro) == n
    ensures DigitsValue(micro[..3]) == n / 1000
  {
    DigitsSplit(micro, 3);
    DigitsBound(micro[3..]);
    assert Pow10(3) == 1000;
    var high := DigitsValue(micro[..3]);
    var low := DigitsValue(micro[3..]);
    assert n == high * 1000 + low && 0 <= low < 1000;
  }

  /**
   `get_device_identifier`: nothing for an empty selection; in serial mode
   the text before the first " - "; in BLE mode the slice from just after
   the last '(' to the last ')', with Python's meaning of -1 and of an
   empty or reversed slice.
   */
  function DeviceIdentifier(kind: ConnectionType, selected: string): (r: Option<string>)
    ensures r.None? <==> selected == []
    ensures r.Some? ==> |r.value| <= |selected|
    ensures r.Some? && kind == Serial ==> r.value <= selected
    ensures r.Some? && kind == Serial ==>
      && (|r.value| == |selected| || PyText.OccursAt(selected, " - ", |r.value|))
      && forall i | 0 <= i < |r.value| :: !PyText.OccursAt(selected, " - ", i)
    ensures r.Some? && kind == Ble ==> '(' !in r.value
    ensures r.Some? && kind == Ble ==>
      var open, close := PyText.RFind(selected, '('), PyText.RFind(selected, ')');
      && (0 <= open < close ==> r.value == selected[open + 1..close])
      && (0 <= close < open ==> r.value == [])
      && (open < 0 <= close ==> r.value == selected[..close])
      && (close < 0 ==> r.value == if open + 1 < |selected| - 1 then selected[open + 1..|selected| - 1] else [])
  {
    if selected == [] then None
    else if kind == Serial then Some(PyText.Before(selected, " - "))
    else
      var open := PyText.RFind(selected, '(');
      var close := PyText.RFind(selected, ')');
      var r := PyText.Slice(selected, open + 1, close);
      assert '(' !in r by {
        PyText.SliceFrom(selected, open + 1, close);
      }
      BleSliceCases(selected, open, close);
      Some(r)
  }

  /** The slice `[open + 1:close]` for every way the two rfind results can lie. */
  lemma BleSliceCases(selected: string, open: int, close: int)
    requires -1 <= open < |selected| && -1 <= close < |selected|
    ensures var r := PyText.Slice(selected, open + 1, close);
      && (0 <= open < close ==> r == selected[open + 1..close])
      && (0 <= close < open ==> r == [])
      && (open < 0 <= close ==> r == selected[..close])
      && (close < 0 ==> r == if open + 1 < |selected| - 1 then selected[open + 1..|selected| - 1] else [])
  {
  }

  /** The serial identifier of a listed port is its device name, when that holds no space. */
  lemma SerialIdOfEntry(p: PortScan.Port)
    requires ' ' !in p.device
    ensures DeviceIdentifier(Serial, PortScan.Entry(p)) == Some(p.device)
  {
    var e := PortScan.Entry(p);
    var r := PyText.Before(e, " - ");
    assert e[..|p.device| + 3] == p.device + " - ";
    assert PyText.OccursAt(e, " - ", |p.device|);
    assert |r| <= |p.device|;
    NoSeparatorWithin(e, p.device);
    assert |r| >= |p.device| by {
      assert |r| < |p.device| ==> !PyText.OccursAt(e, " - ", |r|);
    }
    assert e[..|p.device|] == p.device;
  }

  /** " - " cannot start inside a leading part that holds no space. */
  lemma NoSeparatorWithin(e: string, d: string)
    requires d <= e && ' ' !in d
    ensures forall i | 0 <= i < |d| :: !PyText.OccursAt(e, " - ", i)
  {
    forall i | 0 <= i < |d| ensures !PyText.OccursAt(e, " - ", i) {
      assert e[i] == d[i];
      assert i + 3 <= |e| ==> e[i..i + 3][0] == e[i];
    }
  }

  /** The BLE identifier of a listed device is its address, whatever its name. */
  lemma BleIdOfLabel(name: string, address: string)
    requires '(' !in address && ')' !in address
    ensures DeviceIdentifier(Ble, DeviceLabel(name, address)) == Some(address)
  {
    var n := DisplayName(name);
    var shown := DeviceLabel(name, address);
    assert shown[|n| + 2..] == address + ")";
    PyText.RFindAt(shown, '(', |n| + 1);
    PyText.RFindAt(shown, ')', |shown| - 1);
    assert shown[|n| + 2..|shown| - 1] == address;
  }

  /** A BLE-mode selection without parentheses loses its last character: the slice ends at -1. */
  lemma BleIdWithoutParentheses(selected: string)
    requires selected != [] && '(' !in selected && ')' !in selected
    ensures DeviceIdentifier(Ble, selected) == Some(selected[..|selected| - 1])
  {
    PyText.RFindAbsent(selected, '(');
    PyText.RFindAbsent(selected, ')');
  }

  /**
   The application state the handlers read and write; `shown` holds the
   lines of the data textbox and `startTime` the connection instant, in
   microseconds.
   */
  datatype Monitor = Monitor(
    kind: ConnectionType,
    connected: bool,
    connection: Option<string>,
    startTime: Option<int>,
    queue: seq<string>,
    shown: seq<string>,
    dataCount: nat,
    selection: string)

  /** The state built by the constructor. */
  const Initial: Monitor := Monitor(Serial, false, None, None, [], [], 0, "")

  /** What `connect_device` does: complain, or open the identified device. */
  datatype ConnectRequest = SelectDeviceFirst | Open(kind: ConnectionType, id: string)

  function ConnectDevice(m: Monitor): (r: ConnectRequest)
    ensures m.selection == [] ==> r == SelectDeviceFirst
    ensures r.Open? ==> r.kind == m.kind && r.id != [] && DeviceIdentifier(m.kind, m.selection) == Some(r.id)
    ensures r == SelectDeviceFirst <==> DeviceIdentifier(m.kind, m.selection) in {None, Some([])}
  {
    match DeviceIdentifier(m.kind, m.selection)
    case None => SelectDeviceFirst
    case Some(id) => if id == [] then SelectDeviceFirst else Open(m.kind, id)
  }

  /**
   The end of a connect attempt (`connect_serial`, `connect_ble`,
   `on_connected`). A BLE client object is stored before it tries to
   connect, so it stays even when the attempt fails; a serial port object
   exists only once the port opened.
   */
  function ConnectFinished(m: Monitor, id: string, nowMicros: int, succeeded: bool): (r: Monitor)
    ensures succeeded ==> r.connected && r.connection == Some(id) && r.startTime == Some(nowMicros)
    ensures !succeeded ==> r.connected == m.connected && r.startTime == m.startTime
    ensures !succeeded && m.kind == Serial ==> r == m
    ensures !succeeded && m.kind == Ble ==> r.connection == Some(id)
    ensures r.queue == m.queue && r.shown == m.shown && r.dataCount == m.dataCount && r.kind == m.kind
    ensures r.(connected := m.connected, connection := m.connection, startTime := m.startTime) == m
  {
    var stored := if m.kind == Ble || succeeded then m.(connection := Some(id)) else m;
    if succeeded then stored.(connected := true, startTime := Some(nowMicros)) else stored
  }

  /** `disconnect_device`: not connected and no connection object; nothing else changes. */
  function Disconnect(m: Monitor): (r: Monitor)
    ensures !r.connected && r.connection.None?
    ensures r.(connected := m.connected, connection := m.connection) == m
  {
    m.(connected := false, connection := None)
  }

  /** Disconnecting twice is disconnecting once. */
  lemma DisconnectIdempotent(m: Monitor)
    ensures Disconnect(Disconnect(m)) == Disconnect(m)
  {
  }

  /**
   `on_connection_type_change`: the radio buttons choose serial or BLE. The
   rescan that follows is `PortScan.ScanSerialPorts` or a BLE discovery,
   then `DevicesListed`.
   */
  function SetKind(m: Monitor, kind: ConnectionType): (r: Monitor)
    ensures r.kind == kind
    ensures r.(kind := m.kind) == m
  {
    m.(kind := kind)
  }

  /** `update_device_list`: the first device found, if any, becomes the selection; nothing else changes. */
  function DevicesListed(m: Monitor, devices: seq<string>): (r: Monitor)
    ensures |devices| > 0 ==> r.selection == devices[0]
    ensures devices == [] ==> r == m
    ensures r.(selection := m.selection) == m
  {
    if |devices| > 0 then m.(selection := devices[0]) else m
  }

  /**
   After a serial scan lists the ports, connecting opens the first port of
   the arranged order, when every device name is non-empty and holds no space.
   */
  lemma ListedPortConnects(m: Monitor, ports: seq<PortScan.Port>)
    requires m.kind == Serial && |ports| > 0
    requires forall k | 0 <= k < |ports| :: ports[k].device != [] && ' ' !in ports[k].device
    ensures |PortScan.OrderedPorts(ports)| == |ports|
    ensures var listed := DevicesListed(m, PortScan.Map(PortScan.OrderedPorts(ports), PortScan.Entry));
      ConnectDevice(listed) == Open(Serial, PortScan.OrderedPorts(ports)[0].device)
  {
    var ordered := PortScan.OrderedPorts(ports);
    var same := (p: PortScan.Port) => p;
    PortScan.ArrangeIsPermutation(ports, PortScan.IsPreferred, same);
    assert PortScan.Map(ordered, same) == ordered;
    assert PortScan.Map(ports, same) == ports;
    assert |multiset(ordered)| == |multiset(ports)|;
    assert ordered[0] in multiset(ports);
    var entries := PortScan.Map(ordered, PortScan.Entry);
    assert entries[0] == PortScan.Entry(ordered[0]);
    SerialIdOfEntry(ordered[0]);
  }

  /** After a BLE scan lists a device first, connecting opens that device's address, whatever its name. */
  lemma ListedDeviceConnects(m: Monitor, name: string, address: string, others: seq<string>)
    requires m.kind == Ble && address != [] && '(' !in address && ')' !in address
    ensures ConnectDevice(DevicesListed(m, [DeviceLabel(name, address)] + others)) == Open(Ble, address)
  {
    BleIdOfLabel(name, address);
  }

  /** A freshly started monitor shows no clock, and toggling it asks for a device first. */
  lemma InitialAsksForDevice(nowMicros: int)
    ensures Toggle(Initial) == Toggled(Initial, Some(SelectDeviceFirst))
    ensures UpdateGui(Initial, nowMicros).connectionTime == "Connected: --:--:--"
  {
  }

  /** `toggle_connection`: connect when disconnected, disconnect when connected. */
  datatype Toggled = Toggled(monitor: Monitor, request: Option<ConnectRequest>)

  function Toggle(m: Monitor): (r: Toggled)
    ensures m.connected ==> r.request.None? && !r.monitor.connected && r.monitor.connection.None?
    ensures m.connected ==> r.monitor.(connected := m.connected, connection := m.connection) == m
    ensures !m.connected ==> r.monitor == m && r.request == Some(ConnectDevice(m))
  {
    if m.connected then Toggled(Disconnect(m), None) else Toggled(m, Some(ConnectDevice(m)))
  }

  /** The state apart from the record queue and the message counter. */
  function Settled(m: Monitor): Monitor {
    m.(queue := [], dataCount := 0)
  }

  /** `process_received_data` in hex mode: queue one framed record and count it. */
  function ProcessReceivedData(m: Monitor, at: TimeOfDay, data: seq<Byte>): (r: Monitor)
    requires ValidTime(at)
    ensures r.queue == m.queue + [Records.Frame(Stamp(at), Records.HexString(data))]
    ensures r.dataCount == m.dataCount + 1
    ensures Settled(r) == Settled(m)
  {
    m.(queue := m.queue + [Records.Frame(Stamp(at), Records.HexString(data))], dataCount := m.dataCount + 1)
  }

  /** One read of the receive worker: when it happened and the bytes it returned. */
  datatype Chunk = Chunk(at: TimeOfDay, bytes: seq<Byte>)

  /** The records a run of reads produces: one per non-empty chunk, in order. */
  function RecordsOf(chunks: seq<Chunk>): (r: seq<Records.Row>)
    requires forall k | 0 <= k < |chunks| :: ValidTime(chunks[k].at)
    ensures |r| <= |chunks|
  {
    if |chunks| == 0 then []
    else
      var init := chunks[..|chunks| - 1];
      var c := chunks[|chunks| - 1];
      RecordsOf(init) + (if c.bytes == [] then [] else [Records.Row(Stamp(c.at), Records.HexString(c.bytes))])
  }

  /** The receive worker's loop: each non-empty read is processed, an empty one skipped. */
  method ReceiveChunks(m: Monitor, chunks: seq<Chunk>) returns (r: Monitor)
    requires forall k | 0 <= k < |chunks| :: ValidTime(chunks[k].at)
    ensures r.queue == m.queue + Records.Frames(RecordsOf(chunks))
    ensures r.dataCount == m.dataCount + |RecordsOf(chunks)|
    ensures Settled(r) == Settled(m)
  {
    r := m;
    var i := 0;
    while i < |chunks|
      invariant 0 <= i <= |chunks|
      invariant r.queue == m.queue + Records.Frames(RecordsOf(chunks[..i]))
      invariant r.dataCount == m.dataCount + |RecordsOf(chunks[..i])|
      invariant Settled(r) == Settled(m)
    {
      var c := chunks[i];
      ghost var earlier := RecordsOf(chunks[..i]);
      RecordsOfPrefix(chunks, i + 1);
      if c.bytes != [] {
        var row := Records.Row(Stamp(c.at), Records.HexString(c.bytes));
        r := ProcessReceivedData(r, c.at, c.bytes);
        Records.FramesSnoc(earlier, row);
        AppendAssoc(m.queue, Records.Frames(earlier), [Records.Frame(row.timestamp, row.data)]);
      } else {
        AppendEmpty(earlier);
      }
      i := i + 1;
    }
    WholePrefix(chunks);
  }

  /** The records of the first `n` reads: those of the first `n - 1`, then the last read's. */
  lemma RecordsOfPrefix(chunks: seq<Chunk>, n: nat)
    requires 0 < n <= |chunks|
    requires forall k | 0 <= k < |chunks| :: ValidTime(chunks[k].at)
    ensures var c := chunks[n - 1];
      RecordsOf(chunks[..n]) == RecordsOf(chunks[..n - 1])
        + (if c.bytes == [] then [] else [Records.Row(Stamp(c.at), Records.HexString(c.bytes))])
  {
    assert chunks[..n][..n - 1] == chunks[..n - 1];
  }

  /** Concatenation regroups freely. */
  lemma AppendAssoc<T>(a: seq<T>, b: seq<T>, c: seq<T>)
    ensures (a + b) + c == a + (b + c)
  {
  }

  /** Appending nothing leaves a sequence as it was. */
  lemma AppendEmpty<T>(a: seq<T>)
    ensures a + [] == a
  {
  }

  /** The prefix as long as the sequence is the sequence. */
  lemma WholePrefix<T>(s: seq<T>)
    ensures s[..|s|] == s
  {
  }

  /** Rendering the hours, minutes and seconds of a connection clock. */
  datatype Clock = Clock(hours: nat, minutes: nat, seconds: nat)

  /**
   `elapsed.seconds` of the timedelta between two instants given in
   microseconds: whole seconds, the day part dropped. Python normalises a
   timedelta so that this part is never negative.
   */
  function ElapsedSeconds(startMicros: int, nowMicros: int): (s: nat)
    ensures s < 86400
    ensures s * 1000000 <= (nowMicros - startMicros) % 86400000000 < (s + 1) * 1000000
  {
    var s := ((nowMicros - startMicros) / 1000000) % 86400;
    WholeSecondsOfDay(nowMicros - startMicros);
    s
  }

  /** The seconds part of a span is the whole seconds of its remainder modulo one day. */
  lemma WholeSecondsOfDay(d: int)
    ensures var s := (d / 1000000) % 86400;
      s * 1000000 <= d % 86400000000 < (s + 1) * 1000000
  {
    var q, rem := d / 1000000, d % 1000000;
    var k, s := q / 86400, q % 86400;
    assert d == q * 1000000 + rem;
    assert q == k * 86400 + s;
    assert d == k * 86400000000 + (s * 1000000 + rem);
    assert 0 <= s * 1000000 + rem < 86400000000;
    assert d % 86400000000 == s * 1000000 + rem;
  }

  /** The two `divmod` steps of `update_gui`. */
  function ClockOf(s: nat): (c: Clock)
    requires s < 86400
    ensures c.hours * 3600 + c.minutes * 60 + c.seconds == s
    ensures c.hours < 24 && c.minutes < 60 && c.seconds < 60
  {
    var hours := s / 3600;
    var remainder := s % 3600;
    Clock(hours, remainder / 60, remainder % 60)
  }

  /** The decomposition is the only one with minutes and seconds below 60. */
  lemma ClockUnique(s: nat, c: Clock)
    requires s < 86400
    requires c.minutes < 60 && c.seconds < 60
    requires c.hours * 3600 + c.minutes * 60 + c.seconds == s
    ensures ClockOf(s) == c
  {
    var d := ClockOf(s);
    assert c.minutes * 60 + c.seconds < 3600;
    assert d.minutes * 60 + d.seconds < 3600;
    assert c.hours == d.hours;
    assert c.minutes == d.minutes;
  }

  /** `f"{hours:02d}:{minutes:02d}:{seconds:02d}"`. */
  function ClockText(c: Clock): (r: string)
    requires c.hours < 100 && c.minutes < 100 && c.seconds < 100
    ensures |r| == 8 && r[2] == ':' && r[5] == ':'
    ensures forall i | 0 <= i < |r| && i != 2 && i != 5 :: IsDigit(r[i])
    ensures DigitsValue(r[0..2]) == c.hours && DigitsValue(r[3..5]) == c.minutes && DigitsValue(r[6..8]) == c.seconds
  {
    ZeroPadWidth(c.hours, 2);
    ZeroPadWidth(c.minutes, 2);
    ZeroPadWidth(c.seconds, 2);
    var hh, mm, ss := ZeroPad(c.hours, 2), ZeroPad(c.minutes, 2), ZeroPad(c.seconds, 2);
    ClockFields(hh, mm, ss);
    hh + ":" + mm + ":" + ss
  }

  /** Three two-digit fields joined by ':' sit at positions 0, 3 and 6. */
  lemma ClockFields(hh: string, mm: string, ss: string)
    requires |hh| == 2 && |mm| == 2 && |ss| == 2
    requires forall i | 0 <= i < 2 :: IsDigit(hh[i]) && IsDigit(mm[i]) && IsDigit(ss[i])
    ensures var r := hh + ":" + mm + ":" + ss;
      && |r| == 8 && r[2] == ':' && r[5] == ':'
      && (forall i | 0 <= i < |r| && i != 2 && i != 5 :: IsDigit(r[i]))
      && r[0..2] == hh && r[3..5] == mm && r[6..8] == ss
  {
    var r := hh + ":" + mm + ":" + ss;
    assert r[0..2] == hh && r[3..5] == mm && r[6..8] == ss;
    forall i | 0 <= i < |r| && i != 2 && i != 5 ensures IsDigit(r[i]) {
      assert r[i] == if i < 2 then hh[i] else if i < 5 then mm[i - 3] else ss[i - 6];
    }
  }

  /** What a pass of `update_gui` did: the new state and the two statistics labels. */
  datatype Refresh = Refresh(monitor: Monitor, messages: string, connectionTime: string)

  /**
   `update_gui`: move every queued line to the end of the textbox, show the
   message count, and show the connection clock while connected and a
   start time is known.
   */
  function UpdateGui(m: Monitor, nowMicros: int): (r: Refresh)
    ensures r.monitor.shown == m.shown + m.queue && r.monitor.queue == []
    ensures r.monitor.(shown := m.shown, queue := m.queue) == m
    ensures r.messages == "Messages: " + Decimal(m.dataCount)
    ensures !(m.connected && m.startTime.Some?) ==> r.connectionTime == "Connected: --:--:--"
    ensures m.connected && m.startTime.Some? ==>
      ShowsClock(r.connectionTime, ElapsedSeconds(m.startTime.value, nowMicros))
  {
    var drained := m.(shown := m.shown + m.queue, queue := []);
    var clock :=
      if m.connected && m.startTime.Some? then
        var s := ElapsedSeconds(m.startTime.value, nowMicros);
        ClockLabelShows(s);
        "Connected: " + ClockText(ClockOf(s))
      else "Connected: --:--:--";
    Refresh(drained, "Messages: " + Decimal(m.dataCount), clock)
  }

  /**
   The connection label shows s seconds: "Connected: HH:MM:SS" with hours
   below 24, minutes and seconds below 60, adding up to s.
   */
  predicate ShowsClock(t: string, s: nat) {
    && |t| == 19 && t[..11] == "Connected: " && t[13] == ':' && t[16] == ':'
    && (forall i | 11 <= i < 19 && i != 13 && i != 16 :: IsDigit(t[i]))
    && DigitsValue(t[11..13]) < 24 && DigitsValue(t[14..16]) < 60 && DigitsValue(t[17..19]) < 60
    && DigitsValue(t[11..13]) * 3600 + DigitsValue(t[14..16]) * 60 + DigitsValue(t[17..19]) == s
  }

  /** The label `update_gui` builds shows the seconds it was built from. */
  lemma ClockLabelShows(s: nat)
    requires s < 86400
    ensures ShowsClock("Connected: " + ClockText(ClockOf(s)), s)
  {
    var text := ClockText(ClockOf(s));
    var t := "Connected: " + text;
    assert t[11..13] == text[0..2] && t[14..16] == text[3..5] && t[17..19] == text[6..8];
  }

  /** `clear_data`: empty the textbox and reset the counter; lines still queued are kept. */
  function ClearData(m: Monitor): (r: Monitor)
    ensures r.shown == [] && r.dataCount == 0
    ensures r.(shown := m.shown, dataCount := m.dataCount) == m
  {
    m.(shown := [], dataCount := 0)
  }

  /** A clear followed by a refresh shows exactly the lines that were still queued. */
  lemma ClearThenRefresh(m: Monitor, now: int)
    ensures UpdateGui(ClearData(m), now).monitor.shown == m.queue
  {
  }

  /** Every hex record can be exported and read back unchanged. */
  lemma HexRecordExportable(at: TimeOfDay, data: seq<Byte>)
    requires ValidTime(at)
    ensures Records.Exportable(Records.Row(Stamp(at), Records.HexString(data)))
  {
    var stamp := Stamp(at);
    var hex := Records.HexString(data);
    StampExportable(at);
    HexDataExportable(data);
    ExportableParts(stamp, hex);
  }

  /** A row is exportable once its parts are: the definition, for variables. */
  lemma ExportableParts(stamp: string, hex: string)
    requires ']' !in stamp && '\n' !in stamp
    requires '\n' !in hex && (hex == [] || !PyText.IsSpace(hex[|hex| - 1]))
    ensures Records.Exportable(Records.Row(stamp, hex))
  {
  }

  /** A stamp holds only digits, ':' and '.'. */
  lemma StampExportable(at: TimeOfDay)
    requires ValidTime(at)
    ensures ']' !in Stamp(at) && '\n' !in Stamp(at)
  {
    var t := Stamp(at);
    forall k | 0 <= k < |t| ensures t[k] != ']' && t[k] != '\n' { }
  }

  /** A hex rendering holds no newline and ends in a hex digit. */
  lemma HexDataExportable(data: seq<Byte>)
    ensures var h := Records.HexString(data);
      '\n' !in h && (h == [] || !PyText.IsSpace(h[|h| - 1]))
  {
    var h := Records.HexString(data);
    forall k | 0 <= k < |h| ensures h[k] != '\n' { }
    if h != [] {
      assert (|h| - 1) % 3 != 2;
    }
  }

  /** The records of a run of reads can all be exported. */
  lemma {:induction false} RecordsExportable(chunks: seq<Chunk>)
    requires forall k | 0 <= k < |chunks| :: ValidTime(chunks[k].at)
    ensures forall k | 0 <= k < |RecordsOf(chunks)| :: Records.Exportable(RecordsOf(chunks)[k])
  {
    if |chunks| > 0 {
      var init := chunks[..|chunks| - 1];
      var c := chunks[|chunks| - 1];
      RecordsExportable(init);
      HexRecordExportable(c.at, c.bytes);
    }
  }

  /**
   Starting from an empty textbox, receiving a run of chunks and refreshing
   the GUI, the CSV export lists every received record's timestamp and hex
   data in order, one row per non-empty chunk.
   */
  lemma SessionExport(m: Monitor, chunks: seq<Chunk>, now: int)
    requires forall k | 0 <= k < |chunks| :: ValidTime(chunks[k].at)
    requires m.shown == [] && m.queue == Records.Frames(RecordsOf(chunks))
    ensures var text := Records.TextboxText(UpdateGui(m, now).monitor.shown);
      && (|RecordsOf(chunks)| == 0 ==> Records.ExportCsv(text) == Records.NoData)
      && (|RecordsOf(chunks)| > 0 ==> Records.ExportCsv(text) == Records.Table(RecordsOf(chunks)))
  {
    RecordsExportable(chunks);
    Records.ExportRoundTrip(RecordsOf(chunks));
    assert UpdateGui(m, now).monitor.shown == Records.Frames(RecordsOf(chunks));
  }
}

=== FILE: ports.dfy ===
/**
 The serial-port list of the monitor application (APP.py, `scan_serial_ports`):
 every enumerated port becomes the entry "device - description"; a port
 whose lower-cased description mentions "bluetooth", "bt" or "serial" is
 put at the front of the list, any other port at the back.
 */
module PortScan {
  import PyText

  /** What the operating system reports about one serial port. */
  datatype Port = Port(device: string, description: string)

  /** The combobox entry of a port. */
  function Entry(p: Port): string {
    p.device + " - " + p.description
  }

  /** The description mentions one of the keywords, ignoring case. */
  predicate IsPreferred(p: Port) {
    var d := PyText.Lower(p.description);
    PyText.Contains(d, "bluetooth") || PyText.Contains(d, "bt") || PyText.Contains(d, "serial")
  }

  /** The elements that pass the test, in their original order. */
  function Select<T>(s: seq<T>, keep: T -> bool): (r: seq<T>)
    ensures forall k | 0 <= k < |r| :: keep(r[k])
  {
    if |s| == 0 then []
    else Select(s[..|s| - 1], keep) + (if keep(s[|s| - 1]) then [s[|s| - 1]] else [])
  }

  /** The elements that fail the test, in their original order. */
  function Drop<T>(s: seq<T>, keep: T -> bool): (r: seq<T>)
    ensures forall k | 0 <= k < |r| :: !keep(r[k])
  {
    if |s| == 0 then []
    else Drop(s[..|s| - 1], keep) + (if keep(s[|s| - 1]) then [] else [s[|s| - 1]])
  }

  function Reverse<T>(s: seq<T>): (r: seq<T>)
    ensures |r| == |s|
  {
    seq(|s|, k requires 0 <= k < |s| => s[|s| - 1 - k])
  }

  function Map<T, U>(s: seq<T>, f: T -> U): (r: seq<U>)
    ensures |r| == |s|
  {
    seq(|s|, k requires 0 <= k < |s| => f(s[k]))
  }

  /** Passing elements last-seen first, then the failing ones in their original order. */
  function Arrange<T>(s: seq<T>, keep: T -> bool): seq<T> {
    Reverse(Select(s, keep)) + Drop(s, keep)
  }

  lemma {:induction false} MapAppend<T, U>(a: seq<T>, b: seq<T>, f: T -> U)
    ensures Map(a + b, f) == Map(a, f) + Map(b, f)
  {
  }

  lemma {:induction false} FiltersSnoc<T>(s: seq<T>, x: T, keep: T -> bool)
    ensures Select(s + [x], keep) == Select(s, keep) + (if keep(x) then [x] else [])
    ensures Drop(s + [x], keep) == Drop(s, keep) + (if keep(x) then [] else [x])
  {
    assert (s + [x])[..|s|] == s;
  }

  /** One more element: its image joins the front if it passes, the back otherwise. */
  lemma {:induction false} ArrangeStep<T, U>(s: seq<T>, x: T, keep: T -> bool, f: T -> U)
    ensures keep(x) ==> Map(Reverse(Select(s + [x], keep)), f) == [f(x)] + Map(Reverse(Select(s, keep)), f)
    ensures keep(x) ==> Map(Drop(s + [x], keep), f) == Map(Drop(s, keep), f)
    ensures !keep(x) ==> Map(Reverse(Select(s + [x], keep)), f) == Map(Reverse(Select(s, keep)), f)
    ensures !keep(x) ==> Map(Drop(s + [x], keep), f) == Map(Drop(s, keep), f) + [f(x)]
  {
    FiltersSnoc(s, x, keep);
    if keep(x) {
      assert Reverse(Select(s, keep) + [x]) == [x] + Reverse(Select(s, keep));
      MapAppend([x], Reverse(Select(s, keep)), f);
    } else {
      MapAppend(Drop(s, keep), [x], f);
    }
  }

  /** The arranged images of s + [x]: the image of x lands at the front or at the back. */
  lemma {:induction false} ArrangeSnoc<T, U>(s: seq<T>, x: T, keep: T -> bool, f: T -> U)
    ensures keep(x) ==> Map(Arrange(s + [x], keep), f) == [f(x)] + Map(Arrange(s, keep), f)
    ensures !keep(x) ==> Map(Arrange(s + [x], keep), f) == Map(Arrange(s, keep), f) + [f(x)]
  {
    ArrangeStep(s, x, keep, f);
    MapAppend(Reverse(Select(s + [x], keep)), Drop(s + [x], keep), f);
    MapAppend(Reverse(Select(s, keep)), Drop(s, keep), f);
  }

  lemma {:induction false} ArrangeLast<T, U>(s: seq<T>, keep: T -> bool, f: T -> U)
    requires |s| > 0
    ensures var init, x := s[..|s| - 1], s[|s| - 1];
      && (keep(x) ==> Map(Arrange(s, keep), f) == [f(x)] + Map(Arrange(init, keep), f))
      && (!keep(x) ==> Map(Arrange(s, keep), f) == Map(Arrange(init, keep), f) + [f(x)])
  {
    assert s == s[..|s| - 1] + [s[|s| - 1]];
    ArrangeSnoc(s[..|s| - 1], s[|s| - 1], keep, f);
  }

  /** Arranging only reorders: the images occur as often as before. */
  lemma {:induction false} ArrangeIsPermutation<T, U>(s: seq<T>, keep: T -> bool, f: T -> U)
    ensures multiset(Map(Arrange(s, keep), f)) == multiset(Map(s, f))
  {
    if |s| > 0 {
      var init := s[..|s| - 1];
      var x := s[|s| - 1];
      ArrangeIsPermutation(init, keep, f);
      ArrangeLast(s, keep, f);
      assert Map(s, f) == Map(init, f) + [f(x)];
      assert multiset(Map(Arrange(s, keep), f)) == multiset(Map(Arrange(init, keep), f)) + multiset{f(x)};
    }
  }

  /** No failing element comes before a passing one. */
  lemma {:induction false} PassingFirst<T>(s: seq<T>, keep: T -> bool)
    ensures var a := Arrange(s, keep);
      forall i, j | 0 <= i < j < |a| :: keep(a[j]) ==> keep(a[i])
  {
    var pre := Reverse(Select(s, keep));
    var a := Arrange(s, keep);
    forall i, j | 0 <= i < j < |a| && keep(a[j])
      ensures keep(a[i])
    {
      assert a[i] == pre[i];
    }
  }

  /** The port order the scan produces. */
  function OrderedPorts(ports: seq<Port>): seq<Port> {
    Arrange(ports, IsPreferred)
  }

  /** The scan's loop: a preferred port's entry is inserted at the front, any other appended. */
  method ScanSerialPorts(ports: seq<Port>) returns (portList: seq<string>)
    ensures portList == Map(OrderedPorts(ports), Entry)
    ensures portList == Map(Reverse(Select(ports, IsPreferred)), Entry) + Map(Drop(ports, IsPreferred), Entry)
  {
    portList := [];
    var i := 0;
    while i < |ports|
      invariant 0 <= i <= |ports|
      invariant portList == Map(OrderedPorts(ports[..i]), Entry)
    {
      var port := ports[i];
      var preferred := IsPreferred(port);
      ArrangeSnoc(ports[..i], port, IsPreferred, Entry);
      if preferred {
        portList := [Entry(port)] + portList;
      } else {
        portList := portList + [Entry(port)];
      }
      assert ports[..i + 1] == ports[..i] + [port];
      i := i + 1;
    }
    assert ports[..i] == ports;
    MapAppend(Reverse(Select(ports, IsPreferred)), Drop(ports, IsPreferred), Entry);
  }

  /** The scan lists every port's entry exactly as often as the port was enumerated. */
  lemma {:induction false} ScanIsPermutation(ports: seq<Port>)
    ensures multiset(Map(OrderedPorts(ports), Entry)) == multiset(Map(ports, Entry))
  {
    ArrangeIsPermutation(ports, IsPreferred, Entry);
  }

  /** Every preferred port's entry precedes every other port's entry. */
  lemma {:induction false} ScanPreferredFirst(ports: seq<Port>)
    ensures var ordered := OrderedPorts(ports);
      forall i, j | 0 <= i < j < |ordered| :: IsPreferred(ordered[j]) ==> IsPreferred(ordered[i])
  {
    PassingFirst(ports, IsPreferred);
  }
}

=== FILE: pytext.dfy ===
/**
 The few Python `str` operations the desktop applications rely on, with
 Python's own edge cases: `find` and `rfind` answer -1 when nothing is
 found, slices accept negative and out-of-range bounds, `split` keeps
 empty fields, and `strip` removes exactly the characters `str.isspace`
 accepts.
 */
module PyText {
  import opened Common

  /** True when pat occurs in s starting at index i. */
  predicate OccursAt(s: string, pat: string, i: int) {
    0 <= i && i + |pat| <= |s| && s[i..i + |pat|] == pat
  }

  /** `s.find(pat)`: the least index at which pat occurs, or -1. */
  function Find(s: string, pat: string): (r: int)
    ensures -1 <= r <= |s|
    ensures r >= 0 ==> OccursAt(s, pat, r)
    ensures forall i | 0 <= i && (r < 0 || i < r) :: !OccursAt(s, pat, i)
  {
    FindFrom(s, pat, 0)
  }

  function FindFrom(s: string, pat: string, k: nat): (r: int)
    requires k <= |s|
    ensures r == -1 || (k <= r <= |s| && OccursAt(s, pat, r))
    ensures forall i | k <= i && (r < 0 || i < r) :: !OccursAt(s, pat, i)
    decreases |s| - k
  {
    if OccursAt(s, pat, k) then k
    else if k == |s| then -1
    else FindFrom(s, pat, k + 1)
  }

  /** `pat in s`. */
  predicate Contains(s: string, pat: string) {
    Find(s, pat) >= 0
  }

  /** For a one-character pattern, containment is membership of that character. */
  lemma ContainsChar(s: string, c: char)
    ensures Contains(s, [c]) <==> c in s
  {
    if c in s {
      var i :| 0 <= i < |s| && s[i] == c;
      assert s[i..i + 1] == [c];
      assert OccursAt(s, [c], i);
    }
    var r := Find(s, [c]);
    if r >= 0 {
      assert s[r..r + 1] == [c];
      assert s[r] == c;
    }
  }

  /** find reports the first position holding a one-character pattern. */
  lemma FindCharAt(s: string, c: char, i: nat)
    requires i < |s| && s[i] == c && c !in s[..i]
    ensures Find(s, [c]) == i
  {
    assert s[i..i + 1] == [c];
    assert OccursAt(s, [c], i);
  }

  /** What find says about a one-character pattern, in terms of characters. */
  lemma FindCharFirst(s: string, c: char)
    ensures Find(s, [c]) == -1 <==> c !in s
    ensures Find(s, [c]) >= 0 ==> Find(s, [c]) < |s| && s[Find(s, [c])] == c && c !in s[..Find(s, [c])]
  {
    ContainsChar(s, c);
    var r := Find(s, [c]);
    if r >= 0 {
      assert s[r..r + 1] == [c];
      forall k | 0 <= k < r ensures s[k] != c {
        assert !OccursAt(s, [c], k);
        assert s[k..k + 1] == [s[k]];
      }
    }
  }

  /** find answers -1 for a character that does not occur. */
  lemma FindCharAbsent(s: string, c: char)
    requires c !in s
    ensures Find(s, [c]) == -1
  {
    ContainsChar(s, c);
  }

  /** `s.rfind(c)` for a one-character argument: the greatest index holding c, or -1. */
  function RFind(s: string, c: char): (r: int)
    ensures -1 <= r < |s|
    ensures r >= 0 ==> s[r] == c
    ensures forall i | r < i < |s| :: s[i] != c
  {
    if |s| == 0 then -1
    else if s[|s| - 1] == c then |s| - 1
    else RFind(s[..|s| - 1], c)
  }

  /** rfind reports the last position holding the character. */
  lemma RFindAt(s: string, c: char, i: nat)
    requires i < |s| && s[i] == c && c !in s[i + 1..]
    ensures RFind(s, c) == i
  {
  }

  /** rfind answers -1 for a character that does not occur. */
  lemma {:induction false} RFindAbsent(s: string, c: char)
    requires c !in s
    ensures RFind(s, c) == -1
    decreases |s|
  {
    if |s| > 0 {
      RFindAbsent(s[..|s| - 1], c);
    }
  }

  /** How Python turns a slice bound into an index: negatives count from the end, then clamp. */
  function SliceIndex(i: int, n: nat): (r: nat)
    ensures r <= n
    ensures 0 <= i <= n ==> r == i
    ensures i < 0 && 0 <= i + n ==> r == i + n
    ensures i + n < 0 ==> r == 0
    ensures i > n ==> r == n
  {
    if i < 0 then (if i + n < 0 then 0 else i + n)
    else if i > n then n
    else i
  }

  /**
   `s[start:end]`: the characters from the first resolved bound up to the
   second, nothing when the second does not lie beyond the first.
   */
  function Slice(s: string, start: int, end: int): (r: string)
    ensures |r| <= |s|
    ensures 0 <= start <= end <= |s| ==> r == s[start..end]
    ensures var a, b := SliceIndex(start, |s|), SliceIndex(end, |s|);
      && |r| == (if a < b then b - a else 0)
      && forall k | 0 <= k < |r| :: r[k] == s[a + k]
  {
    var a := SliceIndex(start, |s|);
    var b := SliceIndex(end, |s|);
    if a < b then s[a..b] else []
  }

  /** A slice from a start inside the string holds the characters from that start on. */
  lemma SliceFrom(s: string, start: int, end: int)
    requires 0 <= start <= |s|
    ensures forall k | 0 <= k < |Slice(s, start, end)| :: start + k < |s| && Slice(s, start, end)[k] == s[start + k]
  {
  }

  /** `s.split(sep)[0]`: everything before the first separator. */
  function Before(s: string, sep: string): (r: string)
    requires |sep| > 0
    ensures r <= s
    ensures forall i | 0 <= i < |r| :: !OccursAt(s, sep, i)
    ensures |r| < |s| ==> OccursAt(s, sep, |r|)
    ensures |sep| == 1 ==> sep[0] !in r
    ensures |sep| == 1 && |r| < |s| ==> s[|r|] == sep[0]
  {
    var i := Find(s, sep);
    var r := if i < 0 then s else s[..i];
    assert i >= 0 ==> s[i..i + |sep|] == sep;
    assert |sep| == 1 ==> forall k | 0 <= k < |r| :: r[k] != sep[0] by {
      if |sep| == 1 {
        forall k | 0 <= k < |r| ensures r[k] != sep[0] {
          assert !OccursAt(s, sep, k);
          assert s[k..k + 1] == [s[k]];
        }
      }
    }
    r
  }

  /** `s.split(sep)[1]`: the field between the first and the second separator, if there is one. */
  function Second(s: string, sep: string): (r: Option<string>)
    requires |sep| > 0
    ensures r.None? <==> !Contains(s, sep)
    ensures r.Some? ==>
      var i := Find(s, sep);
      && 0 <= i && i + |sep| <= |s|
      && var rest := s[i + |sep|..];
      && r.value <= rest
      && (forall k | 0 <= k < |r.value| :: !OccursAt(rest, sep, k))
      && (|r.value| == |rest| || OccursAt(rest, sep, |r.value|))
  {
    var i := Find(s, sep);
    if i < 0 then None else Some(Before(s[i + |sep|..], sep))
  }

  /** The fields of `s.split(c)` for a one-character separator c. */
  function Split(s: string, c: char): (r: seq<string>)
    ensures |r| >= 1
    ensures forall k | 0 <= k < |r| :: c !in r[k]
    ensures Join(r, c) == s
  {
    if |s| == 0 then [[]]
    else
      var rest := Split(s[1..], c);
      if s[0] == c then [[]] + rest
      else [[s[0]] + rest[0]] + rest[1..]
  }

  /** `c.join(parts)` for a one-character separator c. */
  function Join(parts: seq<string>, c: char): string
    requires |parts| >= 1
  {
    if |parts| == 1 then parts[0] else parts[0] + [c] + Join(parts[1..], c)
  }

  /** A join starts with its first field and ends with its last. */
  lemma {:induction false} JoinEnds(parts: seq<string>, c: char)
    requires |parts| >= 1
    ensures parts[0] <= Join(parts, c)
    ensures |parts[|parts| - 1]| <= |Join(parts, c)|
    ensures Join(parts, c)[|Join(parts, c)| - |parts[|parts| - 1]|..] == parts[|parts| - 1]
    decreases |parts|
  {
    if |parts| > 1 {
      JoinEnds(parts[1..], c);
    }
  }

  /** Splitting a join of separator-free fields gives the fields back. */
  lemma {:induction false} SplitJoin(parts: seq<string>, c: char)
    requires |parts| >= 1
    requires forall k | 0 <= k < |parts| :: c !in parts[k]
    ensures Split(Join(parts, c), c) == parts
  {
    SplitWithField(parts[0], if |parts| == 1 then [] else [c] + Join(parts[1..], c), c);
    if |parts| > 1 {
      SplitJoin(parts[1..], c);
    }
  }

  /** A separator-free field at the front becomes the first field of the split. */
  lemma {:induction false} SplitWithField(f: string, tail: string, c: char)
    requires c !in f
    requires tail == [] || tail[0] == c
    ensures Split(f + tail, c)[0] == f
    ensures tail == [] ==> Split(f + tail, c) == [f]
    ensures tail != [] ==> Split(f + tail, c)[1..] == Split(tail[1..], c)
    decreases |f|
  {
    if |f| > 0 {
      assert (f + tail)[1..] == f[1..] + tail;
      SplitWithField(f[1..], tail, c);
    } else {
      assert f + tail == tail;
    }
  }

  /** The characters Python's `str.isspace` accepts. */
  predicate IsSpace(c: char) {
    ('\t' <= c <= '\r') || ('\U{001C}' <= c <= ' ') || c == '\U{0085}' || c == '\U{00A0}'
    || c == '\U{1680}' || ('\U{2000}' <= c <= '\U{200A}') || c == '\U{2028}' || c == '\U{2029}'
    || c == '\U{202F}' || c == '\U{205F}' || c == '\U{3000}'
  }

  /** `s.lstrip()`: drops the leading whitespace. */
  function LStrip(s: string): (r: string)
    ensures |r| <= |s| && r == s[|s| - |r|..]
    ensures forall i | 0 <= i < |s| - |r| :: IsSpace(s[i])
    ensures r == [] || !IsSpace(r[0])
  {
    if |s| > 0 && IsSpace(s[0]) then
      var r := LStrip(s[1..]);
      assert forall i | 1 <= i < |s| - |r| :: s[i] == s[1..][i - 1];
      assert s[1..][|s| - 1 - |r|..] == s[|s| - |r|..];
      r
    else s
  }

  /** `s.rstrip()`: drops the trailing whitespace. */
  function RStrip(s: string): (r: string)
    ensures r <= s
    ensures forall i | |r| <= i < |s| :: IsSpace(s[i])
    ensures r == [] || !IsSpace(r[|r| - 1])
  {
    if |s| > 0 && IsSpace(s[|s| - 1]) then RStrip(s[..|s| - 1]) else s
  }

  /** Appending whitespace to a text that does not end in whitespace is undone by rstrip. */
  lemma {:induction false} RStripSpaces(s: string, w: string)
    requires s == [] || !IsSpace(s[|s| - 1])
    requires forall i | 0 <= i < |w| :: IsSpace(w[i])
    ensures RStrip(s + w) == s
    decreases |w|
  {
    if |w| > 0 {
      var w' := w[..|w| - 1];
      assert (s + w)[..|s + w| - 1] == s + w';
      RStripSpaces(s, w');
    } else {
      assert s + w == s;
    }
  }

  /** A text with no whitespace at either end, followed by whitespace, strips to itself. */
  lemma StripPadded(s: string, w: string)
    requires |s| > 0 && !IsSpace(s[0]) && !IsSpace(s[|s| - 1])
    requires forall i | 0 <= i < |w| :: IsSpace(w[i])
    ensures Strip(s + w) == s
  {
    assert LStrip(s + w) == s + w;
    RStripSpaces(s, w);
  }

  /** One more field at the end of a join. */
  lemma {:induction false} JoinSnoc(parts: seq<string>, x: string, c: char)
    requires |parts| >= 1
    ensures Join(parts + [x], c) == Join(parts, c) + [c] + x
    decreases |parts|
  {
    if |parts| > 1 {
      assert (parts + [x])[1..] == parts[1..] + [x];
      JoinSnoc(parts[1..], x, c);
    }
  }

  /**
   `s.strip()`: the part of s left between its leading and its trailing
   whitespace, which neither begins nor ends with whitespace.
   */
  function Strip(s: string): (r: string)
    ensures var a := |s| - |LStrip(s)|;
      && a + |r| <= |s| && (forall k | 0 <= k < |r| :: r[k] == s[a + k])
      && (forall i | 0 <= i < a :: IsSpace(s[i]))
      && (forall i | a + |r| <= i < |s| :: IsSpace(s[i]))
    ensures r == [] || (!IsSpace(r[0]) && !IsSpace(r[|r| - 1]))
  {
    var l := LStrip(s);
    var r := RStrip(l);
    StripShape(s, l, r);
    r
  }

  /** The text left by an lstrip and then an rstrip sits in s, with whitespace on both sides of it. */
  lemma StripShape(s: string, l: string, r: string)
    requires |l| <= |s| && l == s[|s| - |l|..]
    requires forall i | 0 <= i < |s| - |l| :: IsSpace(s[i])
    requires l == [] || !IsSpace(l[0])
    requires r <= l
    requires forall i | |r| <= i < |l| :: IsSpace(l[i])
    requires r == [] || !IsSpace(r[|r| - 1])
    ensures var a := |s| - |l|;
      && a + |r| <= |s| && (forall k | 0 <= k < |r| :: r[k] == s[a + k])
      && (forall i | 0 <= i < a :: IsSpace(s[i]))
      && (forall i | a + |r| <= i < |s| :: IsSpace(s[i]))
      && (r == [] || (!IsSpace(r[0]) && !IsSpace(r[|r| - 1])))
  {
    var a := |s| - |l|;
    assert r == l[..|r|];
    forall i | a + |r| <= i < |s| ensures IsSpace(s[i]) {
      assert s[i] == l[i - a];
    }
    assert r != [] ==> r[0] == l[0];
  }

  /** `s.lower()` on the ASCII letters; every other character is left as it is. */
  function Lower(s: string): (r: string)
    ensures |r| == |s|
    ensures forall i | 0 <= i < |s| :: r[i] == (if 'A' <= s[i] <= 'Z' then (s[i] as int + 32) as char else s[i])
  {
    if |s| == 0 then [] else Lower(s[..|s| - 1]) + [LowerChar(s[|s| - 1])]
  }

  function LowerChar(c: char): char {
    if 'A' <= c <= 'Z' then (c as int + 32) as char else c
  }
}

=== FILE: records.dfy ===
/**
 The text records of the monitor application (APP.py): how a received
 chunk is rendered in hex, how each record is framed as "[timestamp] data",
 and how the CSV export splits the displayed text back into timestamp and
 data columns.
 */
module Records {
  import opened Common
  import PyText

  /** An upper-case hexadecimal digit. */
  predicate IsHexDigit(c: char) {
    '0' <= c <= '9' || 'A' <= c <= 'F'
  }

  /** The upper-case hexadecimal digit for d. */
  function HexDigit(d: nat): (c: char)
    requires d < 16
    ensures IsHexDigit(c)
  {
    if d < 10 then ('0' as int + d) as char else ('A' as int + d - 10) as char
  }

  /** `f"{b:02X}"`: two upper-case hexadecimal digits. */
  function HexByte(b: Byte): (r: string)
    ensures |r| == 2 && IsHexDigit(r[0]) && IsHexDigit(r[1])
  {
    [HexDigit(b / 16), HexDigit(b % 16)]
  }

  /** `" ".join(f"{b:02X}" for b in data)`. */
  function HexString(data: seq<Byte>): (r: string)
    ensures |data| == 0 ==> r == []
    ensures |data| > 0 ==> |r| == 3 * |data| - 1
    ensures forall k | 0 <= k < |r| :: if k % 3 == 2 then r[k] == ' ' else IsHexDigit(r[k])
  {
    if |data| == 0 then []
    else if |data| == 1 then HexByte(data[0])
    else
      var rest := HexString(data[1..]);
      var r := HexByte(data[0]) + " " + rest;
      assert forall k | 3 <= k < |r| :: r[k] == rest[k - 3];
      r
  }

  /** The value of an upper-case hexadecimal digit. */
  function HexValue(c: char): Option<nat> {
    if '0' <= c <= '9' then Some(c as int - '0' as int)
    else if 'A' <= c <= 'F' then Some(c as int - 'A' as int + 10)
    else None
  }

  /** Reads two hexadecimal digits as a byte. */
  function ParseHexByte(hi: char, lo: char): Option<Byte> {
    match (HexValue(hi), HexValue(lo))
    case (Some(h), Some(l)) => if h < 16 && l < 16 then Some(h * 16 + l) else None
    case _ => None
  }

  /** Reads a hex rendering back: byte pairs separated by single spaces, nothing else. */
  function ParseHex(s: string): Option<seq<Byte>>
    decreases |s|
  {
    if |s| == 0 then Some([])
    else if |s| < 2 then None
    else
      match ParseHexByte(s[0], s[1])
      case None => None
      case Some(b) =>
        if |s| == 2 then Some([b])
        else if |s| == 3 || s[2] != ' ' then None
        else
          match ParseHex(s[3..])
          case None => None
          case Some(rest) => Some([b] + rest)
  }

  /** A digit the reader accepts is the one the writer prints for its value. */
  lemma HexDigitOfValue(c: char)
    requires HexValue(c).Some?
    ensures HexValue(c).value < 16 && HexDigit(HexValue(c).value) == c
  {
  }

  /** Two digits the reader accepts are the rendering of the byte it reads. */
  lemma HexBytePair(hi: char, lo: char)
    requires ParseHexByte(hi, lo).Some?
    ensures HexByte(ParseHexByte(hi, lo).value) == [hi, lo]
  {
    HexDigitOfValue(hi);
    HexDigitOfValue(lo);
    var h, l := HexValue(hi).value, HexValue(lo).value;
    var b := h * 16 + l;
    assert b / 16 == h && b % 16 == l;
  }

  lemma HexByteRoundTrip(b: Byte)
    ensures ParseHexByte(HexByte(b)[0], HexByte(b)[1]) == Some(b)
  {
    assert HexValue(HexDigit(b / 16)) == Some(b / 16);
    assert HexValue(HexDigit(b % 16)) == Some(b % 16);
  }

  /** The bytes are recoverable from their hex rendering. */
  lemma {:induction false} HexRoundTrip(data: seq<Byte>)
    ensures ParseHex(HexString(data)) == Some(data)
    decreases |data|
  {
    if |data| > 0 {
      HexByteRoundTrip(data[0]);
      if |data| > 1 {
        HexRoundTrip(data[1..]);
        var s := HexString(data);
        assert s == HexByte(data[0]) + " " + HexString(data[1..]);
        assert s[0] == HexByte(data[0])[0] && s[1] == HexByte(data[0])[1] && s[2] == ' ';
        assert ParseHexByte(s[0], s[1]) == Some(data[0]);
        assert s[3..] == HexString(data[1..]);
        assert ParseHex(s[3..]) == Some(data[1..]);
        assert |s| > 3;
        assert data == [data[0]] + data[1..];
      } else {
        var s := HexString(data);
        assert s == HexByte(data[0]);
        assert ParseHexByte(s[0], s[1]) == Some(data[0]);
        assert data == [data[0]];
      }
    }
  }

  /** Every text the reader accepts is the rendering of what it reads. */
  lemma {:induction false} HexCanonical(s: string, data: seq<Byte>)
    requires ParseHex(s) == Some(data)
    ensures HexString(data) == s
    decreases |s|
  {
    if |s| > 0 {
      var b := ParseHexByte(s[0], s[1]).value;
      HexBytePair(s[0], s[1]);
      assert HexByte(b) == s[..2];
      if |s| > 2 {
        var rest := ParseHex(s[3..]).value;
        HexCanonical(s[3..], rest);
        assert data[1..] == rest;
        assert s == s[..2] + " " + s[3..];
      }
    }
  }

  /** `f"[{timestamp}] {formatted_data}"`, the line queued for each received chunk. */
  function Frame(stamp: string, text: string): (r: string) {
    "[" + stamp + "] " + text
  }

  /** Where the parts of a frame sit: '[', the stamp, "] ", then the text. */
  lemma FrameLayout(stamp: string, text: string)
    ensures var r := Frame(stamp, text);
      && |r| == |stamp| + |text| + 3
      && r[0] == '[' && r[1..|stamp| + 1] == stamp && r[|stamp| + 1..|stamp| + 3] == "] " && r[|stamp| + 3..] == text
  {
  }

  /** One row of the CSV export: the Timestamp and Data columns. */
  datatype Row = Row(timestamp: string, data: string)

  /**
   The export's handling of one line: a line that is not blank, starts with
   '[' and contains ']' becomes the text between '[' and the first ']' and
   the text from two places after that ']'; any other line is skipped.
   */
  function ParseLine(line: string): (r: Option<Row>)
    ensures r.Some? <==> |line| > 0 && line[0] == '[' && ']' in line
    ensures r.Some? ==>
      var t := r.value.timestamp;
      && ']' !in t
      && |t| + 2 <= |line|
      && line[..|t| + 2] == "[" + t + "]"
      && r.value.data == (if |line| >= |t| + 3 then line[|t| + 3..] else [])
  {
    BracketLineNotBlank(line);
    if |PyText.Strip(line)| > 0 && |line| > 0 && line[0] == '[' then ParseBracketLine(line)
    else None
  }

  /** The body of the export loop, for a line known to start with '['. */
  function ParseBracketLine(line: string): (r: Option<Row>)
    requires |line| > 0 && line[0] == '['
    ensures r.Some? <==> ']' in line
    ensures r.Some? ==>
      var t := r.value.timestamp;
      && ']' !in t
      && |t| + 2 <= |line|
      && line[..|t| + 2] == "[" + t + "]"
      && r.value.data == (if |line| >= |t| + 3 then line[|t| + 3..] else [])
  {
    var end := PyText.Find(line, "]");
    PyText.FindCharFirst(line, ']');
    if end != -1 then
      Some(Row(line[1..end], PyText.Slice(line, end + 2, |line|)))
    else
      None
  }

  /** A line that starts with '[' is never blank, so the blank-line test decides nothing of its own. */
  lemma BracketLineNotBlank(line: string)
    ensures |line| > 0 && line[0] == '[' ==> |PyText.Strip(line)| > 0
  {
  }

  /** A line that opens with "[stamp]" parses to stamp and whatever follows the next character. */
  lemma ParseBracketed(line: string, stamp: string)
    requires ']' !in stamp
    requires |stamp| + 2 <= |line| && line[..|stamp| + 2] == "[" + stamp + "]"
    ensures ParseLine(line) == Some(Row(stamp, if |line| >= |stamp| + 3 then line[|stamp| + 3..] else []))
  {
    ClosedBracket(line, stamp);
    var r := ParseLine(line);
    SameRow(line, r.value, stamp);
  }

  /** A line opening with "[stamp]" contains ']'. */
  lemma ClosedBracket(line: string, stamp: string)
    requires |stamp| + 2 <= |line| && line[..|stamp| + 2] == "[" + stamp + "]"
    ensures ']' in line
  {
    var head := "[" + stamp + "]";
    assert head[|stamp| + 1] == ']';
    assert line[|stamp| + 1] == head[|stamp| + 1];
  }

  /** A row read off a line that opens with "[stamp]" carries that stamp and the rest of the line. */
  lemma SameRow(line: string, row: Row, stamp: string)
    requires ']' !in stamp && ']' !in row.timestamp
    requires |stamp| + 2 <= |line| && line[..|stamp| + 2] == "[" + stamp + "]"
    requires var t := row.timestamp;
      && |t| + 2 <= |line| && line[..|t| + 2] == "[" + t + "]"
      && row.data == (if |line| >= |t| + 3 then line[|t| + 3..] else [])
    ensures row == Row(stamp, if |line| >= |stamp| + 3 then line[|stamp| + 3..] else [])
  {
    SameBracketPrefix(line, row.timestamp, stamp);
  }

  /** The parser inverts the framing whenever the timestamp holds no ']'. */
  lemma FrameRoundTrip(stamp: string, text: string)
    requires ']' !in stamp
    ensures ParseLine(Frame(stamp, text)) == Some(Row(stamp, text))
  {
    var line := Frame(stamp, text);
    assert line[..|stamp| + 2] == "[" + stamp + "]";
    ParseBracketed(line, stamp);
    assert line[|stamp| + 3..] == text;
  }

  /** Two bracketed prefixes of one line whose contents hold no ']' are the same. */
  lemma SameBracketPrefix(line: string, a: string, b: string)
    requires ']' !in a && ']' !in b
    requires |a| + 2 <= |line| && line[..|a| + 2] == "[" + a + "]"
    requires |b| + 2 <= |line| && line[..|b| + 2] == "[" + b + "]"
    ensures a == b
  {
    assert forall k | 0 <= k < |a| :: line[k + 1] == a[k];
    assert forall k | 0 <= k < |b| :: line[k + 1] == b[k];
    assert line[|a| + 1] == ']' && line[|b| + 1] == ']';
    assert |a| == |b|;
  }

  /** The frames of a sequence of rows, in order. */
  function Frames(rows: seq<Row>): (r: seq<string>)
    ensures |r| == |rows|
    ensures forall k | 0 <= k < |r| :: r[k] == Frame(rows[k].timestamp, rows[k].data)
  {
    seq(|rows|, k requires 0 <= k < |rows| => Frame(rows[k].timestamp, rows[k].data))
  }

  /** One more row adds its frame at the end. */
  lemma FramesSnoc(rows: seq<Row>, x: Row)
    ensures Frames(rows + [x]) == Frames(rows) + [Frame(x.timestamp, x.data)]
  {
  }

  /**
   The text the data textbox holds after `update_gui` inserted the lines
   one by one, each followed by a newline.
   */
  function Displayed(lines: seq<string>): string {
    if |lines| == 0 then [] else Displayed(lines[..|lines| - 1]) + lines[|lines| - 1] + "\n"
  }

  /** `data_textbox.get("1.0", "end")`: the contents plus the newline the text widget always keeps at the end. */
  function TextboxText(lines: seq<string>): (r: string)
    ensures |lines| == 0 ==> r == "\n"
    ensures |lines| >= 1 ==> r == PyText.Join(lines, '\n') + "\n\n"
  {
    if |lines| >= 1 then DisplayedIsJoin(lines); Displayed(lines) + "\n"
    else Displayed(lines) + "\n"
  }

  /** The displayed text is the newline-join of the lines, closed by one more newline. */
  lemma {:induction false} DisplayedIsJoin(lines: seq<string>)
    requires |lines| >= 1
    ensures Displayed(lines) == PyText.Join(lines, '\n') + "\n"
    decreases |lines|
  {
    var init := lines[..|lines| - 1];
    if |lines| > 1 {
      DisplayedIsJoin(init);
      assert lines == init + [lines[|lines| - 1]];
      PyText.JoinSnoc(init, lines[|lines| - 1], '\n');
    }
  }

  /** What `export_csv` produces: nothing when the textbox is blank, else the data rows under the header. */
  datatype Export = NoData | Table(rows: seq<Row>)

  /** The rows of the export loop: one per line that parses, in order. */
  function RowsOf(lines: seq<string>): (r: seq<Row>)
    ensures |r| <= |lines|
    ensures forall k | 0 <= k < |r| :: ']' !in r[k].timestamp
  {
    if |lines| == 0 then []
    else
      (match ParseLine(lines[0]) case Some(row) => [row] case None => []) + RowsOf(lines[1..])
  }

  /** `export_csv` on the textbox text: strip it, give up if blank, else parse each line. */
  function ExportCsv(text: string): (r: Export)
    ensures r.NoData? <==> PyText.Strip(text) == []
    ensures r.Table? ==> forall k | 0 <= k < |r.rows| :: ']' !in r.rows[k].timestamp
  {
    var data := PyText.Strip(text);
    if data == [] then NoData else Table(RowsOf(PyText.Split(data, '\n')))
  }

  /** When every line parses, the export lists exactly their rows. */
  lemma {:induction false} RowsOfParsed(lines: seq<string>, rows: seq<Row>)
    requires |lines| == |rows|
    requires forall k | 0 <= k < |lines| :: ParseLine(lines[k]) == Some(rows[k])
    ensures RowsOf(lines) == rows
    decreases |lines|
  {
    if |lines| > 0 {
      RowsOfParsed(lines[1..], rows[1..]);
      assert rows == [rows[0]] + rows[1..];
    }
  }

  /**
   A row the export gives back unchanged: its timestamp holds no ']' and no
   newline, its data no newline, and the data does not end in whitespace
   (which the strip of the whole text would eat on the last line).
   */
  predicate Exportable(row: Row) {
    && ']' !in row.timestamp && '\n' !in row.timestamp && '\n' !in row.data
    && (row.data == [] || !PyText.IsSpace(row.data[|row.data| - 1]))
  }

  /** The last line as the strip of the whole text leaves it: without the space of an empty data part. */
  function StrippedFrame(row: Row): (r: string)
    ensures |r| > 0 && r[0] == '['
  {
    if row.data == [] then "[" + row.timestamp + "]" else Frame(row.timestamp, row.data)
  }

  /** A bare "[timestamp]" line still yields the timestamp and empty data. */
  lemma StampOnlyParses(stamp: string)
    requires ']' !in stamp
    ensures ParseLine("[" + stamp + "]") == Some(Row(stamp, []))
  {
    var line := "[" + stamp + "]";
    assert line[..|stamp| + 2] == line;
    ParseBracketed(line, stamp);
  }

  /** Each line the export sees parses back to its row. */
  lemma StrippedFrameParses(row: Row)
    requires Exportable(row)
    ensures ParseLine(StrippedFrame(row)) == Some(row)
    ensures ParseLine(Frame(row.timestamp, row.data)) == Some(row)
  {
    FrameRoundTrip(row.timestamp, row.data);
    if row.data == [] {
      StampOnlyParses(row.timestamp);
    }
  }

  /** The lines the export splits the stripped text into. */
  function ExportLines(rows: seq<Row>): (r: seq<string>)
    requires |rows| > 0
    ensures |r| == |rows|
  {
    Frames(rows)[..|rows| - 1] + [StrippedFrame(rows[|rows| - 1])]
  }

  /** The joined frames differ from the joined export lines only by the space an empty last data part leaves. */
  lemma JoinedFrames(rows: seq<Row>)
    requires |rows| > 0
    ensures var z: string := if rows[|rows| - 1].data == [] then " " else [];
      PyText.Join(Frames(rows), '\n') == PyText.Join(ExportLines(rows), '\n') + z
  {
    var lines := Frames(rows);
    var n := |rows|;
    var y := StrippedFrame(rows[n - 1]);
    var z: string := if rows[n - 1].data == [] then " " else [];
    assert lines[n - 1] == y + z;
    if n > 1 {
      var init := lines[..n - 1];
      assert lines == init + [lines[n - 1]];
      assert ExportLines(rows) == init + [y];
      PyText.JoinSnoc(init, lines[n - 1], '\n');
      PyText.JoinSnoc(init, y, '\n');
    }
  }

  /** Stripping the textbox text leaves the newline-join of the export lines. */
  lemma StrippedText(rows: seq<Row>)
    requires |rows| > 0
    requires Exportable(rows[|rows| - 1])
    ensures PyText.Strip(TextboxText(Frames(rows))) == PyText.Join(ExportLines(rows), '\n')
  {
    var lines := Frames(rows);
    var parts := ExportLines(rows);
    var y := StrippedFrame(rows[|rows| - 1]);
    var z: string := if rows[|rows| - 1].data == [] then " " else [];
    var joined := PyText.Join(parts, '\n');
    var pad := z + "\n\n";
    DisplayedIsJoin(lines);
    JoinedFrames(rows);
    assert TextboxText(lines) == (joined + z) + "\n" + "\n";
    assert TextboxText(lines) == joined + pad;
    JoinedEnds(rows);
    PaddingIsSpace(z);
    PyText.StripPadded(joined, pad);
  }

  /** The joined export lines start with '[' and end in a non-space. */
  lemma JoinedEnds(rows: seq<Row>)
    requires |rows| > 0
    requires Exportable(rows[|rows| - 1])
    ensures var joined := PyText.Join(ExportLines(rows), '\n');
      |joined| > 0 && !PyText.IsSpace(joined[0]) && !PyText.IsSpace(joined[|joined| - 1])
  {
    var parts := ExportLines(rows);
    var y := StrippedFrame(rows[|rows| - 1]);
    var joined := PyText.Join(parts, '\n');
    PyText.JoinEnds(parts, '\n');
    assert parts[|parts| - 1] == y;
    assert joined[0] == parts[0][0] == '[';
    assert joined[|joined| - 1] == y[|y| - 1];
  }

  /** What the strip removes at the end: an optional space and two newlines. */
  lemma PaddingIsSpace(z: string)
    requires z == " " || z == []
    ensures forall i | 0 <= i < |z + "\n\n"| :: PyText.IsSpace((z + "\n\n")[i])
  {
  }

  /** Neither form of a record's line holds a newline. */
  lemma FrameHasNoNewline(row: Row)
    requires '\n' !in row.timestamp && '\n' !in row.data
    ensures '\n' !in StrippedFrame(row) && '\n' !in Frame(row.timestamp, row.data)
  {
  }

  lemma ExportLineAt(rows: seq<Row>, k: nat)
    requires k < |rows|
    ensures k < |rows| - 1 ==> ExportLines(rows)[k] == Frame(rows[k].timestamp, rows[k].data)
    ensures k == |rows| - 1 ==> ExportLines(rows)[k] == StrippedFrame(rows[k])
  {
  }

  /** The export lines hold no newline and each parses back to its row. */
  lemma ExportLinesParse(rows: seq<Row>)
    requires |rows| > 0
    requires forall k | 0 <= k < |rows| :: Exportable(rows[k])
    ensures forall k | 0 <= k < |rows| :: '\n' !in ExportLines(rows)[k]
    ensures forall k | 0 <= k < |rows| :: ParseLine(ExportLines(rows)[k]) == Some(rows[k])
  {
    var parts := ExportLines(rows);
    forall k | 0 <= k < |rows|
      ensures '\n' !in parts[k] && ParseLine(parts[k]) == Some(rows[k])
    {
      StrippedFrameParses(rows[k]);
      FrameHasNoNewline(rows[k]);
      ExportLineAt(rows, k);
    }
  }

  /** The text of an empty textbox is a lone newline, which strips to nothing. */
  lemma EmptyTextboxExportsNothing()
    ensures ExportCsv("\n") == NoData
  {
    assert PyText.IsSpace('\n');
    assert PyText.LStrip("\n") == [] by {
      assert PyText.LStrip("\n") == PyText.LStrip([]);
    }
    assert PyText.Strip("\n") == PyText.RStrip([]);
  }

  /**
   Exporting the textbox after a run of received records gives back exactly
   the timestamp and data of every record, in order; an empty textbox
   exports nothing.
   */
  lemma ExportRoundTrip(rows: seq<Row>)
    requires forall k | 0 <= k < |rows| :: Exportable(rows[k])
    ensures |rows| == 0 ==> ExportCsv(TextboxText(Frames(rows))) == NoData
    ensures |rows| > 0 ==> ExportCsv(TextboxText(Frames(rows))) == Table(rows)
  {
    var text := TextboxText(Frames(rows));
    if |rows| > 0 {
      var parts := ExportLines(rows);
      StrippedText(rows);
      assert PyText.Strip(text) == PyText.Join(parts, '\n');
      PyText.JoinEnds(parts, '\n');
      assert PyText.Strip(text) != [];
      ExportLinesParse(rows);
      PyText.SplitJoin(parts, '\n');
      assert ExportCsv(text) == Table(RowsOf(parts));
      RowsOfParsed(parts, rows);
    } else {
      assert text == "\n";
      EmptyTextboxExportsNothing();
    }
  }
}

=== FILE: relay_panel.dfy ===
/**
 The desktop relay-control panel (Relay.py): the four relay flags the
 buttons drive, the command string each press or release sends, the scan
 re-entry guard, the device labels offered after a scan, and how the BLE
 address is taken back out of the selected label.
 */
module RelayPanel {
  import opened Common
  import PyText

  /** `self.client`: none yet, or a client for an address that is or is not connected. */
  datatype Link = NoClient | Client(address: string, isConnected: bool)

  /**
   The panel state the event handlers read and write. `choices` and
   `selection` are the device combobox's value list and current text.
   */
  datatype Panel = Panel(
    relays: RelayBank,
    client: Link,
    connectedDevice: Option<string>,
    scanning: bool,
    choices: seq<string>,
    selection: string)

  /** The state built by the constructor. */
  const Initial: Panel := Panel(AllOff, NoClient, None, false, [], "")

  /** `self.client and self.client.is_connected`. */
  predicate Connected(p: Panel) {
    p.client.Client? && p.client.isConnected
  }

  /** The command `_send_relay_command` writes: "R", the channel number, the state. */
  function CommandText(relayIndex: nat, state: nat): (r: string)
    ensures |r| >= 3 && r[0] == 'R'
    ensures relayIndex < 4 && state < 2 ==> r == ['R', DigitChar(relayIndex + 1), DigitChar(state)]
  {
    "R" + Decimal(relayIndex + 1) + Decimal(state)
  }

  /** The bytes `command.encode()` puts on the wire. */
  function CommandBytes(relayIndex: nat, state: nat): (r: seq<Byte>)
    ensures relayIndex < 4 && state < 2 ==> r == ['R' as int, '1' as int + relayIndex, '0' as int + state]
  {
    Utf8Encode(CommandText(relayIndex, state))
  }

  /** What a button event did: the new panel, the command sent if any, and whether "Not Connected" was shown. */
  datatype EventResult = EventResult(panel: Panel, sent: Option<string>, warned: bool)

  /** `relay_press`: switch channel i on and send state 1, but only while connected. */
  function Press(p: Panel, i: nat): (r: EventResult)
    requires i < 4
    ensures !Connected(p) ==> r.panel == p && r.sent.None? && r.warned
    ensures Connected(p) ==> !r.warned && r.sent == Some(['R', DigitChar(i + 1), '1'])
    ensures Connected(p) ==> r.panel.relays[i] && forall k | 0 <= k < 4 && k != i :: r.panel.relays[k] == p.relays[k]
    ensures r.panel.(relays := p.relays) == p
  {
    if !Connected(p) then EventResult(p, None, true)
    else EventResult(p.(relays := p.relays[i := true]), Some(CommandText(i, 1)), false)
  }

  /** `relay_release`: switch channel i off and send state 0; silently nothing when not connected. */
  function Release(p: Panel, i: nat): (r: EventResult)
    requires i < 4
    ensures !Connected(p) ==> r.panel == p && r.sent.None? && !r.warned
    ensures Connected(p) ==> !r.warned && r.sent == Some(['R', DigitChar(i + 1), '0'])
    ensures Connected(p) ==> !r.panel.relays[i] && forall k | 0 <= k < 4 && k != i :: r.panel.relays[k] == p.relays[k]
    ensures r.panel.(relays := p.relays) == p
  {
    if !Connected(p) then EventResult(p, None, false)
    else EventResult(p.(relays := p.relays[i := false]), Some(CommandText(i, 0)), false)
  }

  /** A freshly started panel is not connected: a press only warns and a scan can start. */
  lemma InitialPanelIdle(i: nat)
    requires i < 4
    ensures Press(Initial, i) == EventResult(Initial, None, true)
    ensures Release(Initial, i) == EventResult(Initial, None, false)
    ensures ScanRequested(Initial).started
  {
  }

  /** A press followed by a release of the same button leaves that channel off and sends "R<n>1" then "R<n>0". */
  lemma PressThenRelease(p: Panel, i: nat)
    requires i < 4 && Connected(p)
    ensures var pressed := Press(p, i);
      var released := Release(pressed.panel, i);
      && pressed.sent == Some(CommandText(i, 1))
      && released.sent == Some(CommandText(i, 0))
      && released.panel == p.(relays := p.relays[i := false])
  {
  }

  /** `_disconnection_success`: drop the client and the device name, show every relay off. */
  function DisconnectionSuccess(p: Panel): (r: Panel)
    ensures r.client.NoClient? && r.connectedDevice.None?
    ensures forall k | 0 <= k < 4 :: !r.relays[k]
    ensures r.scanning == p.scanning && r.choices == p.choices && r.selection == p.selection
  {
    p.(client := NoClient, connectedDevice := None, relays := AllOff)
  }

  /**
   `disconnect_device` through `_disconnect_device`: only a connected client
   is asked to disconnect, and only that request can fail, in which case
   nothing changes.
   */
  function Disconnect(p: Panel, requestFails: bool): (r: Panel)
    ensures Connected(p) && requestFails ==> r == p
    ensures !(Connected(p) && requestFails) ==> r == DisconnectionSuccess(p)
    ensures !Connected(r) || r == p
  {
    if Connected(p) && requestFails then p else DisconnectionSuccess(p)
  }

  /** A second successful disconnect changes nothing. */
  lemma DisconnectIdempotent(p: Panel, fails: bool)
    ensures Disconnect(DisconnectionSuccess(p), fails) == DisconnectionSuccess(p)
  {
  }

  /** `_connect_device` and `_connection_success`: the client is kept even when the connection fails. */
  function ConnectFinished(p: Panel, address: string, succeeded: bool): (r: Panel)
    ensures Connected(r) <==> succeeded
    ensures r.client == Client(address, succeeded)
    ensures succeeded ==> r.connectedDevice == Some(p.selection)
    ensures !succeeded ==> r.connectedDevice == p.connectedDevice
    ensures r.(client := p.client, connectedDevice := p.connectedDevice) == p
  {
    if succeeded then p.(client := Client(address, true), connectedDevice := Some(p.selection))
    else p.(client := Client(address, false))
  }

  /** `scan_devices`: a request while a scan runs is dropped; otherwise a scan starts. */
  datatype ScanStart = ScanStart(panel: Panel, started: bool)

  function ScanRequested(p: Panel): (r: ScanStart)
    ensures p.scanning ==> r.panel == p && !r.started
    ensures !p.scanning ==> r.started && r.panel.scanning && r.panel.choices == []
    ensures r.panel.(scanning := p.scanning, choices := p.choices) == p
  {
    if p.scanning then ScanStart(p, false)
    else ScanStart(p.(scanning := true, choices := []), true)
  }

  /** `_update_device_list`: the scan is over; the first device, if any, is selected. */
  function ScanFinished(p: Panel, labels: seq<string>): (r: Panel)
    ensures !r.scanning
    ensures r.choices == labels
    ensures |labels| > 0 ==> r.selection == labels[0]
    ensures |labels| == 0 ==> r.selection == p.selection
    ensures r.(scanning := p.scanning, choices := p.choices, selection := p.selection) == p
  {
    p.(scanning := false, choices := labels, selection := if |labels| > 0 then labels[0] else p.selection)
  }

  /** `_scan_error`: the scan is over and nothing else changes. */
  function ScanFailed(p: Panel): (r: Panel)
    ensures !r.scanning
    ensures r == p.(scanning := false)
  {
    p.(scanning := false)
  }

  /** After a completed or failed scan a new scan request is honoured again. */
  lemma ScanGuardReleased(p: Panel, labels: seq<string>)
    ensures ScanRequested(ScanFinished(p, labels)).started
    ensures ScanRequested(ScanFailed(p)).started
    ensures ScanRequested(ScanRequested(p).panel) == ScanStart(ScanRequested(p).panel, false)
  {
  }

  /** What `connect_device` does with the combobox text. */
  datatype ConnectRequest =
    | NoDeviceSelected        // "Please select a device first"
    | InvalidSelection        // the split raised: "Invalid device selection"
    | Connecting(address: string)

  /**
   The text just after the '(' at index open, up to the first character in
   stops or to the end of the selection.
   */
  predicate FieldAfter(selected: string, open: int, stops: set<char>, address: string) {
    && 0 <= open < |selected| && selected[open] == '('
    && address <= selected[open + 1..]
    && (forall k | 0 <= k < |address| :: address[k] !in stops)
    && (open + 1 + |address| == |selected| || selected[open + 1 + |address|] in stops)
  }

  /**
   `selected.split('(')[1].split(')')[0]`: the text after the FIRST '(' up
   to the next '(' or ')'. A selection without '(' makes the indexing fail.
   */
  function SplitAddress(selected: string): (r: ConnectRequest)
    ensures r.NoDeviceSelected? <==> selected == []
    ensures r.InvalidSelection? <==> selected != [] && '(' !in selected
    ensures r.Connecting? ==> '(' !in r.address && ')' !in r.address
    ensures r.Connecting? ==> FieldAfter(selected, PyText.Find(selected, "("), {'(', ')'}, r.address)
  {
    PyText.FindCharFirst(selected, '(');
    if selected == [] then NoDeviceSelected
    else
      match PyText.Second(selected, "(")
      case None => InvalidSelection
      case Some(field) =>
        var address := PyText.Before(field, ")");
        SplitField(selected, PyText.Find(selected, "("), address);
        Connecting(address)
  }

  /** The field the split takes after the '(' at index open ends at the next '(' or ')'. */
  lemma SplitField(selected: string, open: int, address: string)
    requires 0 <= open < |selected| && selected[open] == '('
    requires address == PyText.Before(PyText.Before(selected[open + 1..], "("), ")")
    ensures '(' !in address && ')' !in address
    ensures FieldAfter(selected, open, {'(', ')'}, address)
  {
    var rest := selected[open + 1..];
    var field := PyText.Before(rest, "(");
    assert '(' !in field && ')' !in address;
    assert |address| < |field| ==> rest[|address|] == ')';
    assert |address| == |field| < |rest| ==> rest[|address|] == '(';
  }

  /** For a name without '(' and an address without parentheses, the split recovers the address. */
  lemma SplitAddressOfLabel(name: string, address: string)
    requires '(' !in DisplayName(name)
    requires '(' !in address && ')' !in address
    ensures SplitAddress(DeviceLabel(name, address)) == Connecting(address)
  {
    var n := DisplayName(name);
    var shown := DeviceLabel(name, address);
    assert shown[..|n| + 1] == n + " ";
    PyText.FindCharAt(shown, '(', |n| + 1);
    var rest := shown[|n| + 2..];
    assert rest == address + ")";
    PyText.FindCharAbsent(rest, '(');
    assert rest[..|address|] == address;
    PyText.FindCharAt(rest, ')', |address|);
  }

  /**
   A device whose name contains '(' is connected to the wrong address: the
   label "Buds (L) (AA:BB)" yields "L".
   */
  lemma SplitAddressMisreadsName()
    ensures DeviceLabel("Buds (L)", "AA:BB") == "Buds (L) (AA:BB)"
    ensures SplitAddress("Buds (L) (AA:BB)") == Connecting("L")
  {
    var shown := "Buds (L) (AA:BB)";
    assert shown[..5] == "Buds ";
    PyText.FindCharAt(shown, '(', 5);
    var rest := shown[6..];
    assert rest == "L) (AA:BB)";
    assert rest[..3] == "L) ";
    PyText.FindCharAt(rest, '(', 3);
    var field := rest[..3];
    assert field[..1] == "L";
    PyText.FindCharAt(field, ')', 1);
  }

  /**
   The address as the label intends it: the text after the LAST '(' up to
   the next ')'. A selection without '(' is still an invalid selection.
   */
  function LabelAddress(selected: string): (r: ConnectRequest)
    ensures r.NoDeviceSelected? <==> selected == []
    ensures r.InvalidSelection? <==> selected != [] && '(' !in selected
    ensures r.Connecting? ==> '(' !in r.address && ')' !in r.address
    ensures r.Connecting? ==> FieldAfter(selected, PyText.RFind(selected, '('), {')'}, r.address)
  {
    if selected == [] then NoDeviceSelected
    else
      var open := PyText.RFind(selected, '(');
      if open < 0 then InvalidSelection
      else
        var tail := selected[open + 1..];
        assert '(' !in tail by {
          forall k | 0 <= k < |tail| ensures tail[k] != '(' {
            assert tail[k] == selected[open + 1 + k];
          }
        }
        Connecting(PyText.Before(tail, ")"))
  }

  /** Whatever the device name, the label gives back the address it was built from. */
  lemma LabelAddressOfLabel(name: string, address: string)
    requires '(' !in address && ')' !in address
    ensures LabelAddress(DeviceLabel(name, address)) == Connecting(address)
  {
    var n := DisplayName(name);
    var shown := DeviceLabel(name, address);
    assert shown[|n| + 2..] == address + ")";
    PyText.RFindAt(shown, '(', |n| + 1);
    var tail := address + ")";
    assert tail[..|address|] == address;
    PyText.FindCharAt(tail, ')', |address|);
  }

  /** `connect_device`: the address is taken from the selected label by the split, as written. */
  function RequestConnect(p: Panel): (r: ConnectRequest)
    ensures r.NoDeviceSelected? <==> p.selection == []
    ensures r.InvalidSelection? <==> p.selection != [] && '(' !in p.selection
    ensures r.Connecting? ==> FieldAfter(p.selection, PyText.Find(p.selection, "("), {'(', ')'}, r.address)
  {
    SplitAddress(p.selection)
  }

  /** `connect_device` as the label format intends it: the address after the last '('. */
  function RequestConnectCorrected(p: Panel): (r: ConnectRequest)
    ensures r.NoDeviceSelected? <==> p.selection == []
    ensures r.InvalidSelection? <==> p.selection != [] && '(' !in p.selection
    ensures r.Connecting? ==> FieldAfter(p.selection, PyText.RFind(p.selection, '('), {')'}, r.address)
  {
    LabelAddress(p.selection)
  }

  /** When the selection holds a single '(', the split and the corrected extraction connect alike. */
  lemma RequestConnectAgrees(p: Panel)
    requires PyText.Find(p.selection, "(") == PyText.RFind(p.selection, '(')
    ensures RequestConnect(p) == RequestConnectCorrected(p)
  {
    var s := p.selection;
    var i := PyText.RFind(s, '(');
    if s != [] && i >= 0 {
      var rest := s[i + 1..];
      assert '(' !in rest by {
        forall k | 0 <= k < |rest| ensures rest[k] != '(' {
          assert rest[k] == s[i + 1 + k];
        }
      }
      PyText.FindCharAbsent(rest, '(');
      assert PyText.Before(rest, "(") == rest;
      assert PyText.Second(s, "(") == Some(rest);
      assert SplitAddress(s) == Connecting(PyText.Before(rest, ")"));
      assert LabelAddress(s) == Connecting(PyText.Before(rest, ")"));
    }
  }
}
